=== FILE: README.md ===
# UniConsole, modelled in Dafny

UniConsole is a log console window for the Unity editor. It receives every
message Unity logs, together with the message's stack trace and a LogType.
It keeps a capped history of log entries and shows a filtered view of them,
selected by a case-insensitive regular expression and by three severity
toggles (DEBUG, WARN, ERROR).

The repository holds two versions of the window:

- `UniConsoleEditor.cs`, the newer one. It has:
  - a history capped at 10 000 entries and a view capped at 100;
  - stack traces parsed into call sites, each able to load its source line once;
  - a search that runs only after the word or the level toggles have been
    left alone for 300 ms.
- `UniConsole.cs`, the older one. It has:
  - an uncapped history;
  - a view that is either the history list itself or a list of its own;
  - a one-time clear each time play mode starts.

The model is split into these modules:

| module | file | contents |
|---|---|---|
| `Wrappers` | `Wrappers.dfy` | `Option` and `Result` |
| `Text` | `Text.dfy` | the .NET string routines the source calls: `Split`, `Split` with a string delimiter and a count of 2, `LastIndexOf`, `Path.GetFileName`, `int.TryParse`, the formatting of an int, `Trim` |
| `Levels` | `Levels.dfy` | the severity bits and masks |
| `UnityLog` | `Levels.dfy` | Unity's `LogType` and how `addLog` maps it |
| `Matcher` | `Levels.dfy` | the regular-expression engine, as two given functions (see "Left out") |
| `StackTrace` | `StackTrace.dfy` | stack-trace parsing, and the `StackLine` class with its load-once source-line cache |
| `EditorLog` | `EditorLog.dfy` | the newer `Log` and `Logger` |
| `EditorWindow` | `EditorWindow.dfy` | the newer window: action choice, debounce, `OnGUI`, `addLog` |
| `Console` | `Console.dfy` | the older `Log`, `Logger` and window |

Some behaviours of the code are easy to misread. The model follows the code in each of them.

- **Method names keep the space.** The Log constructor keeps the text before the last `(` of the method part, so `Foo.Bar (String s)` becomes `Foo.Bar ()`.
- **Empty pieces around a call site's delimiter are dropped.** A stack line is split at `") (at "` with a count of 2 and `RemoveEmptyEntries`. Delimiters at the start of the line are skipped, and so are delimiters right after the first one. So `m() (at ) (at a.cs:5)` has the method part `m(` and the location `a.cs:5`.
- **An invalid search word stops the render's actions.** Both windows compile the search word while drawing the view. When it does not compile, the pass takes none of the render's actions and runs no delayed filter, so the newer window's filter never runs with an invalid word. The rest of the pass still happens: the newer window catches the exception and still sets its title, and the older one has already done its play-mode clear by then.
- **`Clear` keeps the level mask.** In the newer Logger, `Clear` leaves `filterLevel` as it was, even when it drops the regex.
- **An empty word skips the level test.** Newer `Filter` with an empty word shows the newest 100 entries whatever their level.
- **`filtered` can hold entries that `all` no longer has.** `Write` evicts from the two lists independently, so the view can keep an entry after the history has dropped it (`EvictedLeavesAll`).
- **A failed source-line read is not cached.** `StackLine.LineCode` returns the error message on the first call. It still sets the load flag, so every later call returns the empty cache.
- **The first log entry has id 2.** The static `Log.Empty` takes id 1 when the type is initialised, so the model's id counter starts at 1.
- **A throwing entry still uses an id.** A call site whose method part has no `(` makes the Log constructor throw. By then the id counter has already advanced, and neither list changes.
- **The older view starts out separate from the history.** It is a separate empty list with no regex, so entries written before the first `Clear` or `Filter` never appear in it.

## Model

| member | source | states |
|---|---|---|
| Text.Split | UniConsoleEditor.cs:501 | `String.Split(char)`: at least one piece; no piece contains the separator; exactly one piece when the separator is absent, and then it is the whole text |
| Text.JoinSplit | UniConsoleEditor.cs:501 | joining the pieces with the separator gives back the original text, so splitting loses nothing |
| Text.SplitJoin | UniConsoleEditor.cs:566 | splitting a join of separator-free pieces gives back those pieces |
| Text.SplitAfterPiece | UniConsoleEditor.cs:566 | a separator-free first piece followed by the separator splits into that piece, then the split of the rest |
| Text.FindFrom | UniConsoleEditor.cs:504 | the first position at or after `from` where the delimiter occurs, or None exactly when it occurs nowhere from there |
| Text.SkipDelims | UniConsoleEditor.cs:504 | the empty entries `RemoveEmptyEntries` drops: the position after a run of whole delimiters, where no further delimiter starts |
| Text.SplitOnce | UniConsoleEditor.cs:504 | `Split` at `") (at "` with a count of 2 and `RemoveEmptyEntries`. Both pieces are non-empty. The line is a run of delimiters, the first piece, a delimiter, another run of delimiters, then the second piece. No delimiter starts inside the first piece, and the second does not start with one. None when the delimiter does not occur |
| Text.SplitOnceAtFirst | UniConsoleEditor.cs:504 | when the first delimiter has text before it, and text after it that does not start with another delimiter, the pieces are exactly the text before and the text after it |
| Text.LastIndexOf | UniConsoleEditor.cs:511 | -1 exactly when the character is absent; otherwise a position holding it with no later occurrence |
| Text.FileName | UniConsoleEditor.cs:570 | `Path.GetFileName`: a suffix of the path, free of `/` and `\`, preceded by a separator unless it is the whole path |
| Text.FileNameAfterSeparator | UniConsoleEditor.cs:570 | the file name of `dir/name` is `name` |
| Text.ParseInt | UniConsoleEditor.cs:571 | `int.TryParse`: a success lies in the 32-bit range and comes from a digit string, or a sign followed by at least one digit. A digit string, unsigned or signed with `+` or `-`, whose value fits in 32 bits parses to that value, and every success is that signed value, so a number out of range fails |
| Text.NatToString | UniConsoleEditor.cs:584 | a non-empty string of digits with no leading zero: it starts with `0` exactly for 0, and then it is `0` |
| Text.IntToString | UniConsoleEditor.cs:584 | the canonical form of `int.ToString`: a leading `-` exactly for a negative number and only digits after it (only digits at all for a number that is not negative), no zero right after the sign, and a leading `0` only for the text `0` |
| Text.DigitsValueOfNatToString | UniConsoleEditor.cs:584 | reading back the digits of a formatted number gives the number |
| Text.ParseIntToString | UniConsoleEditor.cs:571-584 | every 32-bit int, formatted and then parsed, comes back unchanged |
| Text.TrimStart | UniConsoleEditor.cs:596 | a suffix of the text; everything removed is white space; it does not start with white space |
| Text.TrimEnd | UniConsoleEditor.cs:596 | a prefix of the text; everything removed is white space; it does not end with white space |
| Text.Trim | UniConsoleEditor.cs:596 | the text is white space, then the result, then white space; the result neither starts nor ends with white space, and is no longer than the text |
| Levels.Bit | UniConsoleEditor.cs:470-472 | each severity's bit is 1, 2 or 4 |
| Levels.Passes | UniConsoleEditor.cs:400 | `(log.Level & filterLevel) > 0`, one literal bit test per severity |
| Levels.PassesIsBitTest | UniConsoleEditor.cs:400 | a severity passes a mask exactly when the mask has that severity's own bit set |
| Levels.LevelMask | UniConsoleEditor.cs:183-185 | the mask is between 0 and 7, and a severity passes it exactly when its toggle is on |
| Levels.AllAndNothing | UniConsoleEditor.cs:473 | every severity passes All (7), and none passes 0 |
| UnityLog.SeverityOf | UniConsoleEditor.cs:63-83 | Error, Exception and Assert map to Error; Warning to Warn; Log to Debug; each in both directions |
| Matcher.Compiles | UniConsoleEditor.cs:227-229 | `new Regex(Word)` succeeds: the empty word always compiles |
| StackTrace.ParseLocation | UniConsoleEditor.cs:566-581 | the StackLine constructor's split of `path:line` (its properties are stated by the lemmas below) |
| StackTrace.ParseLocationShape | UniConsoleEditor.cs:566-581 | the path is the text before the first `:`, free of `:`, and the file is its base name; a location without `:` has an empty path and file, and line 1 |
| StackTrace.ParseLocationParts | UniConsoleEditor.cs:566-575 | `path:text…` gives that path, its file name, and the parsed line or 1 when the text is not a number |
| StackTrace.ParseLocationNumber | UniConsoleEditor.cs:566-575 | `path:text` whose text parses as n gives that path, its file name and line n |
| StackTrace.LocationRoundTrip | UniConsoleEditor.cs:566-575 | `path:n` parses back to the path and n for every 32-bit n |
| StackTrace.FileNameNoColon | UniConsoleEditor.cs:570 | a file name holds no `:` when its path holds none |
| StackTrace.FileNameOfName | UniConsoleEditor.cs:570 | a base name is its own file name |
| StackTrace.FileLineRoundTrip | UniConsoleEditor.cs:564-586 | the FileLine a StackLine shows parses back to the StackLine's file and line |
| StackTrace.FrameOf | UniConsoleEditor.cs:564-586 | the fields the StackLine constructor sets (stated by `FileLineRoundTrip` and `ParseLocationShape`) |
| StackTrace.NormalizeMethod | UniConsoleEditor.cs:511 | fails exactly when the method part has no `(`; otherwise gives the text before the last `(` followed by `()` |
| StackTrace.ParseLine | UniConsoleEditor.cs:504-511 | a call site exactly when the split at `") (at "` gives two pieces, and never when the delimiter does not occur. It fails exactly when the first piece has no `(`. Otherwise the location is the second piece without its last character, and the method is the normalised first piece |
| StackTrace.LineFrames | UniConsoleEditor.cs:504-512 | the frames one stack line adds (stated by `LineFramesCases`) |
| StackTrace.LineFramesCases | UniConsoleEditor.cs:504-512 | a line throws exactly when it is a call site whose method part has no `(`; otherwise it adds one frame when it is a call site and none when it is not |
| StackTrace.ParseLines | UniConsoleEditor.cs:501-514 | the loop over the lines (stated by `ParseLinesAppend` and `FrameCount`) |
| StackTrace.ParseStack | UniConsoleEditor.cs:499-514 | the stack text split at line feeds, then parsed line by line |
| StackTrace.ParseLinesAppend | UniConsoleEditor.cs:501-514 | parsing two runs of lines is parsing each and combining the results: the first failure wins, otherwise the frames concatenate |
| StackTrace.CombineAssociative | UniConsoleEditor.cs:501-514 | the order in which parse results are combined does not matter |
| StackTrace.CombineEmpty | UniConsoleEditor.cs:501-514 | an empty run of frames is neutral on both sides |
| StackTrace.NonCallLinesGiveNoFrames | UniConsoleEditor.cs:501-514 | lines that are not call sites give no frames and no failure |
| StackTrace.FrameCount | UniConsoleEditor.cs:501-514 | a successful parse has one frame per call-site line |
| StackTrace.SplitCallSite | UniConsoleEditor.cs:504 | a line `m) (at rest`, where m has no `)` and rest does not start with `)`, splits right after m |
| StackTrace.NoParenNoCallSite | UniConsoleEditor.cs:504-505 | a line without `)` is never a call site |
| StackTrace.MethodOfCall | UniConsoleEditor.cs:511 | `Type.Method(args` normalises to `Type.Method()` |
| StackTrace.CallSiteFrames | UniConsoleEditor.cs:504-512 | a line `m) (at loc)`, with m free of `)` and loc not starting with `)`, gives the one frame of loc with m's normalised method |
| StackTrace.WellFormedCallSite | UniConsoleEditor.cs:501-586 | a Unity call-site line `Type.Method(args) (at dir/File.cs:n)`, whose dir does not start with `)`, gives exactly one frame: method `Type.Method()`, path `dir/File.cs`, file `File.cs`, line n, file-line `File.cs:n` |
| StackTrace.LoadLine | UniConsoleEditor.cs:595-601 | a failed load passes its message on; otherwise it succeeds exactly when the 1-based line exists, and then gives that line trimmed |
| StackTrace.StackLine.constructor | UniConsoleEditor.cs:564-586 | the fields are those of the parsed location and the given method; nothing has been loaded |
| StackTrace.StackLine.LineCode | UniConsoleEditor.cs:588-605 | the first call sets the flag and reads the file once. A success is cached and returned; a failure returns its message and leaves the cache empty. Later calls return the cache without reading |
| StackTrace.ReadTwice | UniConsoleEditor.cs:588-605 | two reads load the file once; after a failed load the first read shows the error and the second shows an empty line |
| EditorLog.LevelWord | UniConsoleEditor.cs:495 | the word is `D` exactly for Debug, `<color=#ffcc66>W</color>` exactly for Warn and `<color=#ff9999>E</color>` exactly for Error |
| EditorLog.LevelWordsDiffer | UniConsoleEditor.cs:495 | different severities get different level words |
| EditorLog.FramesOf | UniConsoleEditor.cs:483 | one frame per StackLine, in order |
| EditorLog.NewLog | UniConsoleEditor.cs:490-533 | fails exactly when the stack parse fails, with its error. Otherwise the entry has the given id, level, time, scene, message and stack, the frames of the parse, and the top frame's method and file-line, or `(-)` when there are no frames (`BuiltFrom`). Every StackLine is new, with nothing loaded and an empty cache, as its constructor leaves it |
| EditorLog.NewStackLines | UniConsoleEditor.cs:499-514 | the loop over the stack lines makes one new, unloaded StackLine per call site, whose frames are exactly the parse; it stops at the first bad call site |
| EditorLog.AppendLine | UniConsoleEditor.cs:504-512 | one loop pass adds this line's frames, or fails with its error; the StackLines so far stay in front, and any it adds is new and unloaded |
| EditorLog.ParseLinesStep | UniConsoleEditor.cs:502-514 | the parse of one more line combines the earlier parse with that line's frames |
| EditorLog.ParseLinesFailure | UniConsoleEditor.cs:502-514 | a failure in the lines read so far is the failure of the whole stack |
| EditorLog.IsMatch | UniConsoleEditor.cs:548-551 | no regex matches every entry; otherwise the message, the file-line or the method must match |
| EditorLog.Accepts | UniConsoleEditor.cs:448 | the filter test: the level passes the mask and `IsMatch` holds |
| EditorLog.AcceptsBuilt | UniConsoleEditor.cs:400 | a newly built entry enters the view exactly when its level passes the mask and there is no regex, or the regex matches the message, the top call site's file-line or its method, or `(-)` when the stack has no call site |
| EditorLog.PushCapped | UniConsoleEditor.cs:393-397 | `Insert(0, x)` followed by dropping the last entry when over the cap: x comes first, the old entries follow in order, and only the oldest is dropped, only when the list was full |
| EditorLog.PushCappedBound | UniConsoleEditor.cs:393-397 | a list kept this way never exceeds its cap |
| EditorLog.PushCappedDecreasing | UniConsoleEditor.cs:392-406 | prepending the newest entry keeps ids strictly decreasing from the front |
| EditorLog.EvictedLeavesAll | UniConsoleEditor.cs:393-406 | when the history is full, the oldest entry leaves it, though the view may still show it |
| EditorLog.Selected | UniConsoleEditor.cs:446-455 | never longer than its input |
| EditorLog.SelectedMembers | UniConsoleEditor.cs:446-455 | keeps exactly the entries whose level passes the mask and whose message, file-line or method matches the regex |
| EditorLog.SelectedAppend | UniConsoleEditor.cs:446-455 | selecting from two runs is selecting from each, in order |
| EditorLog.SelectedStep | UniConsoleEditor.cs:446-455 | selecting from one more entry adds that entry exactly when it is accepted |
| EditorLog.NewestOfFullPrefix | UniConsoleEditor.cs:449-453 | once the entries scanned so far give 100 selected ones, they are the newest 100 of the whole selection |
| EditorLog.SelectedDecreasing | UniConsoleEditor.cs:446-455 | selection keeps the newest-first order |
| EditorLog.SelectedIdsAtMost | UniConsoleEditor.cs:446-455 | selection brings in no id larger than its input's |
| EditorLog.ScanView | UniConsoleEditor.cs:443-456 | the filtered view holds at most 100 entries, all accepted and from the history. When at most 100 are accepted it holds every one of them. It is newest first |
| EditorLog.NewestKeeps | UniConsoleEditor.cs:433-438 | a prefix keeps the order and the id bound, and is no longer than asked |
| EditorLog.Logger.constructor | UniConsoleEditor.cs:376-380 | empty lists, no regex, mask All, id counter at 1 (Log.Empty took the first id) |
| EditorLog.Logger.Write | UniConsoleEditor.cs:382-408 | advances the id counter. When the entry can be built, it is the entry the Log constructor builds (`BuiltFrom`: every field, including the level word, the stack text and the top method and file-line), its StackLines are new and unloaded, and it goes first in the history (capped at 10 000), and first in the view (capped at 100) exactly when its level passes the mask and the regex matches. When building throws, both lists are unchanged. The ids stay strictly decreasing, as long as the 32-bit counter has not wrapped (see "Left out") |
| EditorLog.Logger.Count | UniConsoleEditor.cs:410-413 | the number of entries in the view |
| EditorLog.Logger.Lines | UniConsoleEditor.cs:459-462 | the view itself |
| EditorLog.Logger.Clear | UniConsoleEditor.cs:415-425 | restarts the clock and empties both lists; drops the regex only when asked; keeps the mask and the id counter |
| EditorLog.Logger.Filter | UniConsoleEditor.cs:427-457 | stores the mask, then: an empty word drops the regex and shows the newest 100 entries; an invalid word throws, leaving an empty view and the old regex; a valid word becomes the regex and the view the newest 100 accepted entries. Reports whether it threw |
| EditorLog.TakeNewest | UniConsoleEditor.cs:433-438 | the first 100 entries of the history, or all of them when there are fewer |
| EditorLog.Scan | UniConsoleEditor.cs:443-456 | the scan that stops at 100 entries gives the first 100 accepted entries |
| EditorLog.ClearThenWrite | UniConsoleEditor.cs:386-425 | after `Clear(true)`, the next entry written shows in the view exactly when its level passes the mask |
| EditorWindow.ActionOf | UniConsoleEditor.cs:163-191 | the render reports a filter exactly when the mask changed, or when the word changed without a Clear press; a clear exactly when Clear was pressed and the mask did not change |
| EditorWindow.MaskChangesWithToggles | UniConsoleEditor.cs:183-190 | the mask changes exactly when a toggle changes |
| EditorWindow.FirstPassSchedulesFilter | UniConsoleEditor.cs:183-190 | the render starts with mask 0, so its first pass schedules a filter |
| EditorWindow.Tick | UniConsoleEditor.cs:37-48 | for a pass the render does not abort: the filter runs exactly when the pass is not an edit, the filter is scheduled, and the watch has run for 300 ms or more. An edit restarts the watch and schedules the filter. A run stops the watch and replaces the delayed action with a no-op |
| EditorWindow.FiresAtMostEdits | UniConsoleEditor.cs:37-48 | over any run of passes, the filter runs at most once per edit, plus once for a filter already counting down |
| EditorWindow.NoEditNoFire | UniConsoleEditor.cs:37-48 | with no filter counting down, passes without edits never run it |
| EditorWindow.Title | UniConsoleEditor.cs:55 | the window title: `UniCon ` and the count of the view |
| EditorWindow.TitleShowsCount | UniConsoleEditor.cs:55 | the title starts with `UniCon `, and the rest reads back as the count for every 32-bit count |
| EditorWindow.UniConsoleEditor.constructor | UniConsoleEditor.cs:11-13 | an empty logger, an empty word, mask 0, a stopped watch, nothing scheduled |
| EditorWindow.UniConsoleEditor.OnGUI | UniConsoleEditor.cs:22-56 | the word and mask are the render's. When the word does not compile, the render throws: the watch, the schedule and the whole logger stay as they were. Otherwise the watch and schedule follow `Tick`; a Clear empties the logger at once and keeps its regex; a scheduled filter runs with the word and mask of the pass that fires it; else the logger is unchanged. The id counter never moves. The title counts the view |
| EditorWindow.UniConsoleEditor.AddLog | UniConsoleEditor.cs:63-83 | writes the message at the severity `SeverityOf` gives, with all of `Write`'s effects: the id counter advances; the entry is the one the Log constructor builds, with new unloaded StackLines; it goes first in the history and, when accepted, first in the view; a throw leaves both lists; regex, mask and clock are kept |
| Console.LevelWord | UniConsole.cs:302 | one letter: `D` exactly for Debug, `W` exactly for Warn, `E` exactly for Error |
| Console.LevelWordsDiffer | UniConsole.cs:302 | different severities get different letters |
| Console.NewLog | UniConsole.cs:298-306 | the entry holds the given level, time, scene, message and stack, and its level word |
| Console.Accepts | UniConsole.cs:272 | the older filter test: the level passes the mask and the regex matches the message alone |
| Console.Matching | UniConsole.cs:270-276 | never longer than its input |
| Console.MatchingMembers | UniConsole.cs:270-276 | keeps exactly the entries whose level passes the mask and whose message matches, without a cap |
| Console.MatchingAppend | UniConsole.cs:270-276 | matching two runs is matching each, in order |
| Console.Logger.Filtered | UniConsole.cs:279-282 | the list the console draws and counts: the history itself when aliased, else the view's own list |
| Console.Logger.constructor | UniConsole.cs:216-220 | an empty history, a separate empty view, no regex |
| Console.Logger.Write | UniConsole.cs:226-240 | the entry goes first in the uncapped history. An aliased view shows it through the history. A separate view gets it first exactly when a regex is set and matches the message. The view aliases the history only while there is no regex |
| Console.Logger.Count | UniConsole.cs:242-245 | the number of entries in the view |
| Console.Logger.Lines | UniConsole.cs:279-282 | the view |
| Console.Logger.Clear | UniConsole.cs:247-255 | restarts the clock, empties the history, makes the view the history itself, drops the regex |
| Console.Logger.Filter | UniConsole.cs:257-277 | an empty word drops the regex and aliases the view to the history; an invalid word throws and changes nothing; a valid word becomes the regex, and the view a new list of every accepted entry |
| Console.MatchAll | UniConsole.cs:269-276 | the loop builds exactly the matching entries, in history order |
| Console.ActionOf | UniConsole.cs:125-139 | a Clear press beats an edit of the word; a filter exactly when the word changed and Clear was not pressed |
| Console.InitStep | UniConsole.cs:22-34 | a pass clears only in play mode |
| Console.ClearsOncePerPlay | UniConsole.cs:22-34 | over any run of passes, the logger is cleared exactly once per start of play mode, and only once in a run of play-mode passes |
| Console.Title | UniConsole.cs:46 | the window title: `UniConsole ` and the count of the view |
| Console.TitleShowsCount | UniConsole.cs:46 | the title starts with `UniConsole `, and the rest reads back as the count for every 32-bit count |
| Console.UniConsole.constructor | UniConsole.cs:10-12 | an empty logger, latch off, empty word |
| Console.UniConsole.OnGUI | UniConsole.cs:20-47 | the latch follows play mode and clears once when it starts, restarting the clock. An invalid word makes the render throw, so the pass ends with no action and no title. Otherwise a Clear press clears, an edited word filters with it, and the title counts the view. The clock is restarted only by a clear |
| Console.UniConsole.AddLog | UniConsole.cs:49-69 | writes the message at the severity `SeverityOf` gives, with all of `Write`'s effects: the entry first in the history, the view as `Write` leaves it, regex and clock kept |

## Left out

- Drawing is not modelled: `Render` layout, styles, column widths, selection, scrolling, `Log.GUIInit`, the exception label, and the highlighting of matches. The render is reduced to what it reports: the word typed, the Clear press, the three level toggles, and whether compiling the search word throws.
- Regular expressions are not modelled. `Matcher.Engine` is a given pair of functions: whether a word compiles (case-insensitively), and whether a pattern matches a text. An empty word is treated as compiling. Every property holds for every engine.
- The time column shows `elapsedMs` formatted as `{0:#,0}ms`; that formatting is not modelled.
- The clock is a parameter: `now` is passed to each operation, and the stopwatches are the moments they were started.
- The editor's current scene is passed in as a string.
- `AssetDatabase.LoadAssetAtPath` is the `reader` parameter. It gives the file text, or the message of the exception (missing asset, not a text asset).
- `Application.RegisterLogCallback` is not modelled: callbacks arrive through `AddLog`.
- Unity's threads are not modelled: log callbacks and GUI passes are taken one at a time.
- `Logger.Debug`, `Warn` and `Error` are covered by `Write` with the matching severity.
- The static fields of `Logger` are fields of one `Logger` object; `Log.Empty` appears only as the id it takes.
- Text.FileName: `\` is a separator on every platform, whereas Mono on macOS and Linux splits at `/` only. The `ArgumentException` that `Path.GetFileName` raises on Windows for invalid path characters (`<`, `>`, `|`, `"`, control characters), which would make the Log constructor and `Write` throw, is not modelled.
- Text.ParseInt: white space around the number, which `int.TryParse` allows, is not modelled.
- Text.Trim: white space is space and the characters tab to carriage return. Other Unicode white space is not modelled.
- The exception an invalid regex raises is reduced to `ok == false`. Its message and stack, which the newer window shows, are not modelled.
- EditorLog.Logger.Write: the stopwatch reading is cast to a 32-bit int in the source; the model does not wrap it, since a wrap needs more than 24 days without a `Clear`.
- EditorLog.Logger.Write: the id counter is a 32-bit int in the source and wraps to the smallest int after 2^31 - 1 entries, counting entries whose construction throws. The model's counter is unbounded, so the strictly decreasing ids (`Logger.Valid`) hold only until that wrap.
- StackTrace.ParseLine: strings are sequences of Unicode characters, not of UTF-16 code units. Dropping the last unit of the location therefore drops a whole character where the source would leave a lone high surrogate, for a location ending in a character outside the Basic Multilingual Plane.
- Console.Logger.Write: the branch where an aliased view with a regex would insert the entry into the history a second time is excluded by the invariant (an aliased view has no regex), so it is shown unreachable rather than modelled.

=== FILE: Console.dfy ===
/**
 * The older console (UniConsole.cs): an uncapped history without stack
 * parsing, a view that is either the history list itself or a list of its
 * own, and a window that clears once each time play mode starts.
 */
module Console {
  import opened Wrappers
  import opened Text
  import opened Levels
  import UnityLog
  import opened Matcher

  /** One entry: no id and no parsed frames; `elapsedMs` is shown as "{0:#,0}ms". */
  datatype Log = Log(level: Severity, elapsedMs: int, scene: string, levelWord: string, message: string, stack: string)

  /** The level column: D, W or E. */
  function LevelWord(level: Severity): (w: string)
    ensures |w| == 1
    ensures w == "D" <==> level == Debug
    ensures w == "W" <==> level == Warn
    ensures w == "E" <==> level == Error
  {
    assert "D"[0] != "W"[0] && "D"[0] != "E"[0] && "W"[0] != "E"[0];
    match level
    case Debug => "D"
    case Warn => "W"
    case Error => "E"
  }

  /** The one-letter level words tell the three severities apart. */
  lemma LevelWordsDiffer(a: Severity, b: Severity)
    requires a != b
    ensures LevelWord(a) != LevelWord(b)
  {
    assert LevelWord(a)[0] != LevelWord(b)[0];
  }

  function NewLog(level: Severity, elapsedMs: int, scene: string, message: string, stack: string): (l: Log)
    ensures l.level == level && l.message == message && l.stack == stack && l.scene == scene
    ensures l.elapsedMs == elapsedMs && l.levelWord == LevelWord(level)
  {
    Log(level, elapsedMs, scene, LevelWord(level), message, stack)
  }

  /** The older filter test: the level passes the mask and the regex matches the message alone. */
  predicate Accepts(l: Log, mask: int, re: string, e: Engine)
  {
    Passes(l.level, mask) && e.isMatch(re, l.message)
  }

  /** The entries of s the filter accepts, in the order of s. */
  function Matching(s: seq<Log>, mask: int, re: string, e: Engine): (r: seq<Log>)
    ensures |r| <= |s|
  {
    if s == [] then []
    else (if Accepts(s[0], mask, re, e) then [s[0]] else []) + Matching(s[1..], mask, re, e)
  }

  /** Matching keeps exactly the accepted entries, however many there are. */
  lemma {:induction false} MatchingMembers(s: seq<Log>, mask: int, re: string, e: Engine)
    ensures forall l :: l in Matching(s, mask, re, e) <==> l in s && Accepts(l, mask, re, e)
  {
    if s != [] {
      MatchingMembers(s[1..], mask, re, e);
      assert forall l :: l in s <==> l == s[0] || l in s[1..];
    }
  }

  lemma {:induction false} MatchingAppend(a: seq<Log>, b: seq<Log>, mask: int, re: string, e: Engine)
    ensures Matching(a + b, mask, re, e) == Matching(a, mask, re, e) + Matching(b, mask, re, e)
  {
    if a == [] {
      assert a + b == b;
    } else {
      var ab := a + b;
      assert ab[0] == a[0];
      assert ab[1..] == a[1..] + b;
      MatchingAppend(a[1..], b, mask, re, e);
      var head := if Accepts(a[0], mask, re, e) then [a[0]] else [];
      calc {
        Matching(ab, mask, re, e);
        head + Matching(a[1..] + b, mask, re, e);
        head + (Matching(a[1..], mask, re, e) + Matching(b, mask, re, e));
        (head + Matching(a[1..], mask, re, e)) + Matching(b, mask, re, e);
      }
    }
  }

  /**
   * The view list: the history list itself (after Clear or an empty
   * filter word the two names point at one List), or a list of its own.
   */
  datatype View = AliasOfAll | Own(items: seq<Log>)

  /** The older store; its level mask is never changed from All. */
  class Logger {
    const engine: Engine
    const filterLevel: int
    var all: seq<Log>
    var view: View
    var filterRegex: Option<string>
    var clockStart: int

    /** What the console draws and counts. */
    function Filtered(): seq<Log>
      reads this
    {
      match view
      case AliasOfAll => all
      case Own(items) => items
    }

    /** The view aliases the history only while there is no regex. */
    ghost predicate Valid()
      reads this
    {
      filterLevel == All && (view.AliasOfAll? ==> filterRegex.None?)
    }

    /** The static start: two separate empty lists and no regex. */
    constructor (engine: Engine, now: int)
      ensures Valid() && this.engine == engine
      ensures all == [] && view == Own([]) && filterRegex == None && clockStart == now
    {
      this.engine := engine;
      filterLevel := All;
      all := [];
      view := Own([]);
      filterRegex := None;
      clockStart := now;
    }

    /**
     * Logger.Write: the entry goes to the front of the history, with no
     * cap; it goes to the front of the view only when a regex is set and
     * matches its message. An aliased view therefore shows it through the
     * history, and a separate view without a regex never grows.
     */
    method Write(level: Severity, message: string, stack: string, scene: string, now: int) returns (log: Log)
      requires Valid()
      modifies this
      ensures Valid()
      ensures log == NewLog(level, now - clockStart, scene, message, stack)
      ensures all == [log] + old(all)
      ensures filterRegex == old(filterRegex) && clockStart == old(clockStart)
      ensures old(view).AliasOfAll? ==> view == AliasOfAll && Filtered() == all
      ensures old(view).Own? ==> view == Own(
        if filterRegex.Some? && Accepts(log, filterLevel, filterRegex.value, engine)
        then [log] + old(view.items) else old(view.items))
    {
      log := NewLog(level, now - clockStart, scene, message, stack);
      all := [log] + all;
      if Passes(log.level, filterLevel) && filterRegex.Some? && engine.isMatch(filterRegex.value, log.message) {
        match view
        case AliasOfAll =>
          // an aliased view has no regex, so the second insert into the history never runs
          assert false;
        case Own(items) =>
          view := Own([log] + items);
      }
    }

    method Count() returns (n: int)
      ensures n == |Filtered()|
    {
      n := |Filtered()|;
    }

    method Lines() returns (lines: seq<Log>)
      ensures lines == Filtered()
    {
      lines := Filtered();
    }

    /** Logger.Clear: restarts the clock, empties the history, aliases the view to it and drops the regex. */
    method Clear(now: int)
      requires Valid()
      modifies this
      ensures Valid()
      ensures all == [] && view == AliasOfAll && Filtered() == [] && filterRegex == None && clockStart == now
    {
      clockStart := now;
      all := [];
      view := AliasOfAll;
      filterRegex := None;
    }

    /**
     * Logger.Filter: an empty word drops the regex and aliases the view to
     * the history; a valid word becomes the regex and the view a new list
     * of every accepted entry, uncapped; an invalid word throws before
     * anything changes. `ok` is false exactly when it throws.
     */
    method Filter(word: string) returns (ok: bool)
      requires Valid()
      modifies this
      ensures Valid()
      ensures all == old(all) && clockStart == old(clockStart)
      ensures ok <==> word == [] || engine.valid(word)
      ensures word == [] ==> filterRegex == None && view == AliasOfAll && Filtered() == all
      ensures word != [] && !engine.valid(word) ==> filterRegex == old(filterRegex) && view == old(view)
      ensures word != [] && engine.valid(word) ==>
        filterRegex == Some(word) && view == Own(Matching(all, filterLevel, word, engine))
    {
      if word == [] {
        filterRegex := None;
        view := AliasOfAll;
        return true;
      }
      if !engine.valid(word) {
        return false;
      }
      filterRegex := Some(word);
      var items := MatchAll(all, filterLevel, word, engine);
      view := Own(items);
      ok := true;
    }
  }

  /** The loop of Filter: a new list of every accepted entry, in history order. */
  method MatchAll(history: seq<Log>, mask: int, word: string, e: Engine) returns (items: seq<Log>)
    ensures items == Matching(history, mask, word, e)
  {
    items := [];
    for i := 0 to |history|
      invariant items == Matching(history[..i], mask, word, e)
    {
      var log := history[i];
      assert history[..i + 1] == history[..i] + [log];
      MatchingAppend(history[..i], [log], mask, word, e);
      if Passes(log.level, mask) && e.isMatch(word, log.message) {
        items := items + [log];
      }
    }
    assert history[..|history|] == history;
  }

  /** The older render's action: a Clear press beats an edit of the word. */
  datatype UIAction = Noop | LogClear | LogFilter

  function ActionOf(oldWord: string, word: string, clearPressed: bool): (a: UIAction)
    ensures a == LogClear <==> clearPressed
    ensures a == LogFilter <==> !clearPressed && word != oldWord
  {
    if clearPressed then LogClear else if word != oldWord then LogFilter else Noop
  }

  /**
   * The play-mode latch: the new value of isInit, and whether this pass
   * clears the logger because play mode has just started.
   */
  function InitStep(isInit: bool, isPlaying: bool): (r: (bool, bool))
    ensures r.1 ==> isPlaying
  {
    if isPlaying then (true, !isInit) else (false, false)
  }

  /** How many passes clear the logger over a run of play-mode flags. */
  function PlayClears(isInit: bool, plays: seq<bool>): nat
    decreases |plays|
  {
    if plays == [] then 0
    else
      var r := InitStep(isInit, plays[0]);
      (if r.1 then 1 else 0) + PlayClears(r.0, plays[1..])
  }

  /** How many times the flags go from not playing (or the latch's state) to playing. */
  function Starts(prev: bool, plays: seq<bool>): nat
    decreases |plays|
  {
    if plays == [] then 0
    else (if plays[0] && !prev then 1 else 0) + Starts(plays[0], plays[1..])
  }

  /** The latch clears exactly once per start of play mode, and never while play mode goes on. */
  lemma {:induction false} ClearsOncePerPlay(isInit: bool, plays: seq<bool>)
    ensures PlayClears(isInit, plays) == Starts(isInit, plays)
    ensures (forall i :: 0 <= i < |plays| ==> plays[i]) ==>
      PlayClears(isInit, plays) == (if isInit || plays == [] then 0 else 1)
    decreases |plays|
  {
    if plays != [] {
      ClearsOncePerPlay(plays[0], plays[1..]);
      if forall i :: 0 <= i < |plays| ==> plays[i] {
        assert forall i :: 0 <= i < |plays[1..]| ==> plays[1..][i] == plays[i + 1];
      }
    }
  }

  /** The older window title: "UniConsole " and the number of entries in the view. */
  function Title(count: int): string
  {
    "UniConsole " + IntToString(count)
  }

  /** The title reads back as the count it shows. */
  lemma TitleShowsCount(count: int)
    requires Int32Min <= count <= Int32Max
    ensures |Title(count)| > 11 && Title(count)[..11] == "UniConsole "
    ensures ParseInt(Title(count)[11..]) == Some(count)
  {
    assert Title(count)[11..] == IntToString(count);
    ParseIntToString(count);
  }

  /** The older window: the play-mode latch, the logger and the render's search word. */
  class UniConsole {
    const logger: Logger
    var isInit: bool
    var word: string

    ghost predicate Valid()
      reads this, logger
    {
      logger.Valid()
    }

    constructor (engine: Engine, now: int)
      ensures Valid() && fresh(logger) && logger.engine == engine
      ensures logger.all == [] && logger.view == Own([]) && !isInit && word == ""
    {
      logger := new Logger(engine, now);
      isInit := false;
      word := "";
    }

    /**
     * OnGUI: in play mode the first pass clears the logger; then the
     * render draws the view, compiling the search word, which throws for
     * an invalid pattern before any action is taken (the pass then ends
     * without a title); otherwise a Clear press clears and an edited word
     * filters. Returns the title, or None when the pass threw.
     */
    method OnGUI(isPlaying: bool, newWord: string, clearPressed: bool, now: int) returns (title: Option<string>)
      requires Valid()
      modifies this, logger
      ensures Valid()
      ensures (isInit, word) == (InitStep(old(isInit), isPlaying).0, newWord)
      ensures var started, throws := InitStep(old(isInit), isPlaying).1, newWord != [] && !logger.engine.valid(newWord);
        var a := ActionOf(old(word), newWord, clearPressed);
        && (title.None? <==> throws)
        && (throws || a == Noop ==>
              (if started then logger.all == [] && logger.view == AliasOfAll && logger.filterRegex == None
                               && logger.clockStart == now
               else (logger.all == old(logger.all) && logger.view == old(logger.view)
                     && logger.filterRegex == old(logger.filterRegex) && logger.clockStart == old(logger.clockStart))))
        && (!throws && a == LogClear ==>
              logger.all == [] && logger.view == AliasOfAll && logger.filterRegex == None && logger.clockStart == now)
        && (!throws && a == LogFilter ==>
              logger.all == (if started then [] else old(logger.all))
              && logger.clockStart == (if started then now else old(logger.clockStart))
              && (newWord == [] ==> logger.view == AliasOfAll && logger.filterRegex == None)
              && (newWord != [] ==>
                    logger.view == Own(Matching(logger.all, All, newWord, logger.engine))
                    && logger.filterRegex == Some(newWord)))
        && (!throws ==> title == Some(Title(|logger.Filtered()|)))
    {
      var r := InitStep(isInit, isPlaying);
      isInit := r.0;
      if r.1 {
        logger.Clear(now);
      }

      var action := ActionOf(word, newWord, clearPressed);
      word := newWord;
      if word != [] && !logger.engine.valid(word) {
        return None;
      }

      if action == LogClear {
        logger.Clear(now);
      } else if action == LogFilter {
        var ok := logger.Filter(word);
      }
      var n := logger.Count();
      title := Some(Title(n));
    }

    /** addLog: Error, Exception and Assert are errors, Warning a warning, anything else debug. */
    method AddLog(condition: string, stackTrace: string, logType: UnityLog.LogType, scene: string, now: int)
      returns (log: Log)
      requires Valid()
      modifies logger
      ensures Valid()
      ensures log == NewLog(UnityLog.SeverityOf(logType), now - logger.clockStart, scene, condition, stackTrace)
      ensures logger.all == [log] + old(logger.all)
      ensures logger.filterRegex == old(logger.filterRegex) && logger.clockStart == old(logger.clockStart)
      ensures old(logger.view).AliasOfAll? ==> logger.view == AliasOfAll && logger.Filtered() == logger.all
      ensures old(logger.view).Own? ==> logger.view == Own(
        if logger.filterRegex.Some? && Accepts(log, logger.filterLevel, logger.filterRegex.value, logger.engine)
        then [log] + old(logger.view.items) else old(logger.view.items))
    {
      log := logger.Write(UnityLog.SeverityOf(logType), condition, stackTrace, scene, now);
    }
  }
}

=== FILE: EditorLog.dfy ===
/**
 * The log store of the newer console (UniConsoleEditor.cs): a log entry with
 * its parsed stack, and the Logger that keeps the history `all`, newest
 * first and capped at 10 000 entries, and the view `filtered`, capped at 100.
 */
module EditorLog {
  import opened Wrappers
  import opened Text
  import opened Levels
  import opened StackTrace
  import opened Matcher

  const LogLimit: nat := 10 * 1000
  const ShowLogLimit: nat := 100
  /** The method and file-line shown for an entry without call sites. */
  const NoFrame: string := "(-)"

  /**
   * One log entry. `elapsedMs` is the stopwatch reading the entry was made
   * at (the console shows it formatted as "{0:#,0}ms"); `stacks` are the
   * call sites, shared with the view and never copied.
   */
  datatype Log = Log(
    id: int,
    level: Severity,
    elapsedMs: int,
    scene: string,
    levelWord: string,
    message: string,
    fileLine: string,
    methodName: string,
    stack: string,
    stacks: seq<StackLine>)

  /** The level column's text: a plain D, or a coloured W or E. */
  function LevelWord(level: Severity): (w: string)
    ensures w == "D" <==> level == Debug
    ensures w == "<color=#ffcc66>W</color>" <==> level == Warn
    ensures w == "<color=#ff9999>E</color>" <==> level == Error
  {
    match level
    case Debug => "D"
    case Warn => "<color=#ffcc66>W</color>"
    case Error => "<color=#ff9999>E</color>"
  }

  /** The level words tell the three severities apart. */
  lemma LevelWordsDiffer(a: Severity, b: Severity)
    requires a != b
    ensures LevelWord(a) != LevelWord(b)
  {
  }

  function FramesOf(stacks: seq<StackLine>): (fs: seq<Frame>)
    ensures |fs| == |stacks|
    ensures forall i :: 0 <= i < |stacks| ==> fs[i] == stacks[i].AsFrame()
  {
    seq(|stacks|, i requires 0 <= i < |stacks| => stacks[i].AsFrame())
  }

  lemma FramesOfAppend(stacks: seq<StackLine>, s: StackLine)
    ensures FramesOf(stacks + [s]) == FramesOf(stacks) + [s.AsFrame()]
  {
  }

  /**
   * The entry the Log constructor builds from its arguments: the stack
   * parses, the frames are its call sites in line order, and the top method
   * and file-line are those of the first frame, or "(-)" when there is none.
   */
  predicate BuiltFrom(l: Log, id: int, level: Severity, elapsedMs: int, scene: string, message: string, stack: string)
  {
    && ParseStack(stack).Success?
    && var frames := ParseStack(stack).value;
    && l.id == id && l.level == level && l.elapsedMs == elapsedMs && l.scene == scene
    && l.levelWord == LevelWord(level) && l.message == message && l.stack == stack
    && FramesOf(l.stacks) == frames
    && l.methodName == (if |frames| > 0 then frames[0].methodName else NoFrame)
    && l.fileLine == (if |frames| > 0 then frames[0].fileLine else NoFrame)
  }

  /** A StackLine as its constructor leaves it: nothing loaded yet. */
  ghost predicate Unloaded(s: StackLine)
    reads s
  {
    s.Valid() && !s.loadFile && s.lineCode == ""
  }

  /**
   * The Log constructor: the entry gets the given id, its frames are the
   * call sites of `stack` in line order, and its top method and file-line
   * are those of the first frame, or "(-)" when there is none. A call site
   * whose method part has no '(' throws, and no entry is made.
   */
  method NewLog(id: int, level: Severity, elapsedMs: int, scene: string, message: string, stack: string)
    returns (r: Result<Log, StackError>)
    ensures r.Failure? <==> ParseStack(stack).Failure?
    ensures r.Failure? ==> r.error == ParseStack(stack).error
    ensures r.Success? ==> BuiltFrom(r.value, id, level, elapsedMs, scene, message, stack)
    ensures r.Success? ==> forall i :: 0 <= i < |r.value.stacks| ==> fresh(r.value.stacks[i]) && Unloaded(r.value.stacks[i])
  {
    var parsed := NewStackLines(stack);
    if parsed.Failure? {
      return Failure(parsed.error);
    }
    var stacks := parsed.value;
    var methodName, fileLine := NoFrame, NoFrame;
    if |stacks| > 0 {
      methodName, fileLine := stacks[0].methodName, stacks[0].fileLine;
    }
    r := Success(Log(id, level, elapsedMs, scene, LevelWord(level), message, fileLine, methodName, stack, stacks));
  }

  /**
   * The constructor's loop over the '\n'-separated lines of the stack: one
   * new StackLine per call site, in line order; the first call site whose
   * method part has no '(' throws.
   */
  method NewStackLines(stack: string) returns (r: Result<seq<StackLine>, StackError>)
    ensures FramesOfResult(r) == ParseStack(stack)
    ensures r.Success? ==> forall i :: 0 <= i < |r.value| ==> fresh(r.value[i]) && Unloaded(r.value[i])
  {
    var lines := Split(stack, '\n');
    var stacks: seq<StackLine> := [];
    var i := 0;
    while i < |lines|
      invariant 0 <= i <= |lines|
      invariant ParseLines(lines[..i]) == Success(FramesOf(stacks))
      invariant forall j :: 0 <= j < |stacks| ==> fresh(stacks[j]) && Unloaded(stacks[j])
    {
      ParseLinesStep(lines, i);
      var next := AppendLine(stacks, lines[i]);
      if next.Failure? {
        ParseLinesFailure(lines, i + 1);
        return next;
      }
      stacks := next.value;
      i := i + 1;
    }
    assert lines[..i] == lines;
    r := Success(stacks);
  }

  /** The frames of a run of StackLines, or the error that stopped it. */
  function FramesOfResult(r: Result<seq<StackLine>, StackError>): Result<seq<Frame>, StackError>
  {
    match r
    case Success(stacks) => Success(FramesOf(stacks))
    case Failure(e) => Failure(e)
  }

  /** One pass of the loop: a new StackLine when the line is a call site, nothing otherwise. */
  method AppendLine(stacks: seq<StackLine>, line: string) returns (r: Result<seq<StackLine>, StackError>)
    ensures FramesOfResult(r) == Combine(Success(FramesOf(stacks)), LineFrames(line))
    ensures r.Success? ==> |stacks| <= |r.value| && r.value[..|stacks|] == stacks
    ensures r.Success? ==> forall j :: |stacks| <= j < |r.value| ==> fresh(r.value[j]) && Unloaded(r.value[j])
  {
    var site := ParseLine(line);
    if site.None? {
      assert LineFrames(line) == Success([]);
      assert FramesOf(stacks) + [] == FramesOf(stacks);
      r := Success(stacks);
    } else if site.value.Failure? {
      assert LineFrames(line) == Failure(site.value.error);
      r := Failure(site.value.error);
    } else {
      var cs := site.value.value;
      var s := new StackLine(cs.location, cs.methodName);
      assert LineFrames(line) == Success([s.AsFrame()]);
      assert Unloaded(s);
      FramesOfAppend(stacks, s);
      r := Success(stacks + [s]);
      assert r.value[..|stacks|] == stacks && r.value[|stacks|] == s;
    }
  }

  /** One more line: the parse of lines[..i + 1] combines that of lines[..i] with the new line's frames. */
  lemma ParseLinesStep(lines: seq<string>, i: nat)
    requires i < |lines|
    ensures ParseLines(lines[..i + 1]) == Combine(ParseLines(lines[..i]), LineFrames(lines[i]))
  {
    assert lines[..i + 1] == lines[..i] + [lines[i]];
    ParseLinesAppend(lines[..i], [lines[i]]);
    assert ParseLines([lines[i]]) == Combine(LineFrames(lines[i]), ParseLines([]));
    var x := LineFrames(lines[i]);
    if x.Success? {
      assert x.value + [] == x.value;
    }
  }

  /** A failure in a prefix is the failure of the whole. */
  lemma ParseLinesFailure(lines: seq<string>, i: nat)
    requires i <= |lines| && ParseLines(lines[..i]).Failure?
    ensures ParseLines(lines) == ParseLines(lines[..i])
  {
    assert lines[..i] + lines[i..] == lines;
    ParseLinesAppend(lines[..i], lines[i..]);
  }

  /** Log.IsMatch: no regex matches everything; otherwise the message, the file-line or the method must match. */
  predicate IsMatch(l: Log, re: Option<string>, e: Engine)
  {
    re.None? || e.isMatch(re.value, l.message) || e.isMatch(re.value, l.fileLine) || e.isMatch(re.value, l.methodName)
  }

  /** The filter predicate: the entry's level passes the mask and the regex matches it. */
  predicate Accepts(l: Log, mask: int, re: Option<string>, e: Engine)
  {
    Passes(l.level, mask) && IsMatch(l, re, e)
  }

  /**
   * Whether a newly built entry passes the filter follows from the Log
   * constructor's arguments: its level against the mask, and the regex
   * against the message, the top call site's file-line or its method.
   */
  lemma AcceptsBuilt(l: Log, id: int, level: Severity, elapsedMs: int, scene: string, message: string, stack: string,
                     mask: int, re: Option<string>, e: Engine)
    requires BuiltFrom(l, id, level, elapsedMs, scene, message, stack)
    ensures var frames := ParseStack(stack).value;
      var fileLine := if |frames| > 0 then frames[0].fileLine else NoFrame;
      var methodName := if |frames| > 0 then frames[0].methodName else NoFrame;
      Accepts(l, mask, re, e) <==>
        Passes(level, mask)
        && (re.None? || e.isMatch(re.value, message) || e.isMatch(re.value, fileLine) || e.isMatch(re.value, methodName))
  {
  }

  /** Ids strictly decrease from the front (newest) to the back (oldest). */
  ghost predicate Decreasing(s: seq<Log>)
  {
    forall i, j :: 0 <= i < j < |s| ==> s[i].id > s[j].id
  }

  ghost predicate IdsAtMost(s: seq<Log>, n: int)
  {
    forall i :: 0 <= i < |s| ==> s[i].id <= n
  }

  /**
   * Insert(0, x) followed, when the list then holds more than cap entries,
   * by RemoveAt(Count - 1): x comes first, the old entries follow in order,
   * and only the oldest is dropped, only when the list was full.
   */
  function PushCapped<T>(x: T, s: seq<T>, cap: nat): (r: seq<T>)
    requires 1 <= cap
    ensures |r| >= 1 && r[0] == x
    ensures |s| < cap ==> r[1..] == s
    ensures |s| >= cap ==> |r| == |s| && r[1..] == s[..|s| - 1]
  {
    if |s| + 1 > cap then ([x] + s)[..|s|] else [x] + s
  }

  /** A list kept by PushCapped never grows past its cap. */
  lemma PushCappedBound<T>(x: T, s: seq<T>, cap: nat)
    requires 1 <= cap && |s| <= cap
    ensures |PushCapped(x, s, cap)| <= cap
  {
  }

  /** Prepending an entry newer than all others keeps ids strictly decreasing. */
  lemma PushCappedDecreasing(x: Log, s: seq<Log>, cap: nat, n: int)
    requires 1 <= cap && Decreasing(s) && IdsAtMost(s, n) && x.id == n + 1
    ensures Decreasing(PushCapped(x, s, cap)) && IdsAtMost(PushCapped(x, s, cap), n + 1)
  {
    var r := PushCapped(x, s, cap);
    forall i, j | 0 <= i < j < |r|
      ensures r[i].id > r[j].id
    {
      assert r[j] == s[j - 1];
      if i > 0 {
        assert r[i] == s[i - 1];
      }
    }
    forall i | 0 <= i < |r|
      ensures r[i].id <= n + 1
    {
      if i > 0 {
        assert r[i] == s[i - 1];
      }
    }
  }

  /**
   * An entry that Write evicts from a full history leaves `all`; Write does
   * not touch `filtered` for an entry that does not match, so a view holding
   * the evicted entry keeps showing an entry `all` no longer has.
   */
  lemma EvictedLeavesAll(x: Log, all: seq<Log>)
    requires |all| == LogLimit && Decreasing(all) && x.id > all[0].id
    ensures all[LogLimit - 1] !in PushCapped(x, all, LogLimit)
  {
    var r := PushCapped(x, all, LogLimit);
    var e := all[LogLimit - 1];
    forall i | 0 <= i < |r|
      ensures r[i] != e
    {
      if i > 0 {
        assert r[i] == all[i - 1];
        assert all[i - 1].id > e.id;
      }
    }
  }

  /** The entries of s the filter predicate accepts, in the order of s. */
  function Selected(s: seq<Log>, mask: int, re: Option<string>, e: Engine): (r: seq<Log>)
    ensures |r| <= |s|
  {
    if s == [] then []
    else (if Accepts(s[0], mask, re, e) then [s[0]] else []) + Selected(s[1..], mask, re, e)
  }

  /** Selected keeps exactly the accepted entries: each kept one is accepted, each accepted one is kept. */
  lemma {:induction false} SelectedMembers(s: seq<Log>, mask: int, re: Option<string>, e: Engine)
    ensures forall i :: 0 <= i < |Selected(s, mask, re, e)| ==>
      Selected(s, mask, re, e)[i] in s && Accepts(Selected(s, mask, re, e)[i], mask, re, e)
    ensures forall i :: 0 <= i < |s| && Accepts(s[i], mask, re, e) ==> s[i] in Selected(s, mask, re, e)
  {
    if s != [] {
      SelectedMembers(s[1..], mask, re, e);
      var head := if Accepts(s[0], mask, re, e) then [s[0]] else [];
      var rest := Selected(s[1..], mask, re, e);
      assert Selected(s, mask, re, e) == head + rest;
      forall i | 0 <= i < |head + rest|
        ensures (head + rest)[i] in s && Accepts((head + rest)[i], mask, re, e)
      {
        if i >= |head| {
          assert (head + rest)[i] == rest[i - |head|];
        }
      }
      forall i | 0 <= i < |s| && Accepts(s[i], mask, re, e)
        ensures s[i] in head + rest
      {
        if i > 0 {
          assert s[i] == s[1..][i - 1];
        }
      }
    }
  }

  lemma {:induction false} SelectedAppend(a: seq<Log>, b: seq<Log>, mask: int, re: Option<string>, e: Engine)
    ensures Selected(a + b, mask, re, e) == Selected(a, mask, re, e) + Selected(b, mask, re, e)
  {
    if a == [] {
      assert a + b == b;
    } else {
      var ab := a + b;
      assert ab[0] == a[0];
      assert ab[1..] == a[1..] + b;
      SelectedAppend(a[1..], b, mask, re, e);
      var head := if Accepts(a[0], mask, re, e) then [a[0]] else [];
      calc {
        Selected(ab, mask, re, e);
        head + Selected(a[1..] + b, mask, re, e);
        head + (Selected(a[1..], mask, re, e) + Selected(b, mask, re, e));
        (head + Selected(a[1..], mask, re, e)) + Selected(b, mask, re, e);
      }
    }
  }

  /** Selecting from one more entry adds that entry when it is accepted. */
  lemma SelectedStep(items: seq<Log>, i: nat, mask: int, re: Option<string>, e: Engine)
    requires i < |items|
    ensures Selected(items[..i + 1], mask, re, e)
      == Selected(items[..i], mask, re, e) + (if Accepts(items[i], mask, re, e) then [items[i]] else [])
  {
    assert items[..i + 1] == items[..i] + [items[i]];
    SelectedAppend(items[..i], [items[i]], mask, re, e);
    assert Selected([items[i]], mask, re, e)
      == (if Accepts(items[i], mask, re, e) then [items[i]] else []) + Selected([], mask, re, e);
  }

  /** Once the first i entries give n selected ones, the newest n of the whole selection are those. */
  lemma NewestOfFullPrefix(items: seq<Log>, i: nat, n: nat, mask: int, re: Option<string>, e: Engine)
    requires i <= |items| && |Selected(items[..i], mask, re, e)| == n
    ensures Newest(Selected(items, mask, re, e), n) == Selected(items[..i], mask, re, e)
  {
    assert items[..i] + items[i..] == items;
    SelectedAppend(items[..i], items[i..], mask, re, e);
  }

  /** Selecting keeps the relative order: ids still strictly decrease. */
  lemma {:induction false} SelectedDecreasing(s: seq<Log>, mask: int, re: Option<string>, e: Engine)
    requires Decreasing(s)
    ensures Decreasing(Selected(s, mask, re, e))
  {
    if s != [] {
      SelectedDecreasing(s[1..], mask, re, e);
      var rest := Selected(s[1..], mask, re, e);
      SelectedMembers(s[1..], mask, re, e);
      forall j | 0 <= j < |rest|
        ensures s[0].id > rest[j].id
      {
        assert rest[j] in s[1..];
      }
    }
  }

  lemma SelectedIdsAtMost(s: seq<Log>, mask: int, re: Option<string>, e: Engine, n: int)
    requires IdsAtMost(s, n)
    ensures IdsAtMost(Selected(s, mask, re, e), n)
  {
    SelectedMembers(s, mask, re, e);
    var r := Selected(s, mask, re, e);
    forall i | 0 <= i < |r|
      ensures r[i].id <= n
    {
      assert r[i] in s;
    }
  }

  /** The first n entries of s, or all of them when there are fewer. */
  function Newest<T>(s: seq<T>, n: nat): seq<T>
  {
    if |s| <= n then s else s[..n]
  }

  /**
   * The view Filter computes for a non-empty, valid word: at most 100
   * entries, each in `all` and accepted; when fewer than 100 entries are
   * accepted, every one of them; newest first like `all`.
   */
  lemma ScanView(all: seq<Log>, mask: int, re: Option<string>, e: Engine)
    requires Decreasing(all)
    ensures var v := Newest(Selected(all, mask, re, e), ShowLogLimit);
      && |v| <= ShowLogLimit
      && (forall l :: l in v ==> l in all && Accepts(l, mask, re, e))
      && (|Selected(all, mask, re, e)| <= ShowLogLimit ==>
            forall l :: l in all && Accepts(l, mask, re, e) ==> l in v)
      && Decreasing(v)
  {
    SelectedDecreasing(all, mask, re, e);
    SelectedMembers(all, mask, re, e);
    var s := Selected(all, mask, re, e);
    var v := Newest(s, ShowLogLimit);
    forall l | l in v
      ensures l in s
    {
    }
  }

  /**
   * The log store. The source keeps these as static fields shared by every
   * Logger; the model has one Logger object. `lastId` is the process-wide
   * id counter, `clockStart` the moment its stopwatch was last restarted.
   */
  class Logger {
    const engine: Engine
    var all: seq<Log>
    var filtered: seq<Log>
    var filterRegex: Option<string>
    var filterLevel: int
    var lastId: int
    var clockStart: int

    ghost predicate Valid()
      reads this
    {
      && |all| <= LogLimit && |filtered| <= ShowLogLimit
      && Decreasing(all) && IdsAtMost(all, lastId)
      && Decreasing(filtered) && IdsAtMost(filtered, lastId)
    }

    /**
     * The first Logger: empty lists, no regex, every level shown. The id
     * counter is at 1, since the static Log.Empty took the first id.
     */
    constructor (engine: Engine, now: int)
      ensures Valid() && this.engine == engine
      ensures all == [] && filtered == [] && filterRegex == None && filterLevel == All
      ensures lastId == 1 && clockStart == now
    {
      this.engine := engine;
      all, filtered := [], [];
      filterRegex := None;
      filterLevel := All;
      lastId := 1;
      clockStart := now;
    }

    /**
     * Logger.Write (and its Debug, Warn and Error shorthands): the id
     * counter advances first; then the entry is built, prepended to `all`
     * (evicting the oldest past 10 000) and, when it passes the level mask
     * and the current regex, prepended to `filtered` (evicting past 100).
     * When building the entry throws, neither list changes.
     */
    method Write(level: Severity, message: string, stack: string, scene: string, now: int)
      returns (r: Result<Log, StackError>)
      requires Valid()
      modifies this
      ensures Valid()
      ensures lastId == old(lastId) + 1
      ensures filterRegex == old(filterRegex) && filterLevel == old(filterLevel) && clockStart == old(clockStart)
      ensures r.Failure? <==> ParseStack(stack).Failure?
      ensures r.Failure? ==> all == old(all) && filtered == old(filtered)
      ensures r.Success? ==> BuiltFrom(r.value, lastId, level, now - clockStart, scene, message, stack)
      ensures r.Success? ==> forall i :: 0 <= i < |r.value.stacks| ==> fresh(r.value.stacks[i]) && Unloaded(r.value.stacks[i])
      ensures r.Success? ==> all == PushCapped(r.value, old(all), LogLimit)
      ensures r.Success? ==> (filtered ==
        if Accepts(r.value, filterLevel, filterRegex, engine)
        then PushCapped(r.value, old(filtered), ShowLogLimit)
        else old(filtered))
    {
      lastId := lastId + 1;
      r := NewLog(lastId, level, now - clockStart, scene, message, stack);
      if r.Failure? {
        return;
      }
      var log := r.value;
      PushCappedDecreasing(log, all, LogLimit, lastId - 1);
      PushCappedBound(log, all, LogLimit);
      all := PushCapped(log, all, LogLimit);
      if Accepts(log, filterLevel, filterRegex, engine) {
        PushCappedDecreasing(log, filtered, ShowLogLimit, lastId - 1);
        PushCappedBound(log, filtered, ShowLogLimit);
        filtered := PushCapped(log, filtered, ShowLogLimit);
      }
    }

    /** The number of entries in the view. */
    method Count() returns (n: int)
      ensures n == |filtered|
    {
      n := |filtered|;
    }

    /** The view the console draws. */
    method Lines() returns (lines: seq<Log>)
      ensures lines == filtered
    {
      lines := filtered;
    }

    /**
     * Logger.Clear: restarts the stopwatch and empties both lists; the regex
     * is dropped only when asked, and the level mask is kept.
     */
    method Clear(clearFilterRegex: bool, now: int)
      requires Valid()
      modifies this
      ensures Valid()
      ensures all == [] && filtered == [] && clockStart == now
      ensures filterRegex == if clearFilterRegex then None else old(filterRegex)
      ensures filterLevel == old(filterLevel) && lastId == old(lastId)
    {
      clockStart := now;
      all := [];
      filtered := [];
      if clearFilterRegex {
        filterRegex := None;
      }
    }

    /**
     * Logger.Filter: empties the view and stores the level mask first. An
     * empty word drops the regex and shows the newest 100 entries without
     * testing their level. Otherwise the word is compiled: an invalid
     * pattern throws and leaves the view empty and the old regex in place;
     * a valid one becomes the regex, and the view is the newest 100 entries
     * that pass the mask and match, found by a scan that stops at 100.
     * `ok` is false exactly when the compile throws.
     */
    method Filter(word: string, level: int) returns (ok: bool)
      requires Valid()
      modifies this
      ensures Valid()
      ensures all == old(all) && lastId == old(lastId) && clockStart == old(clockStart)
      ensures filterLevel == level
      ensures ok <==> word == [] || engine.valid(word)
      ensures word == [] ==> filterRegex == None && filtered == Newest(all, ShowLogLimit)
      ensures word != [] && !engine.valid(word) ==> filterRegex == old(filterRegex) && filtered == []
      ensures word != [] && engine.valid(word) ==>
        filterRegex == Some(word) && filtered == Newest(Selected(all, level, Some(word), engine), ShowLogLimit)
    {
      filtered := [];
      filterLevel := level;

      if word == [] {
        filterRegex := None;
        NewestKeeps(all, ShowLogLimit, lastId);
        filtered := TakeNewest(all);
        return true;
      }

      if !engine.valid(word) {
        return false;
      }
      filterRegex := Some(word);
      SelectedDecreasing(all, level, filterRegex, engine);
      SelectedIdsAtMost(all, level, filterRegex, engine, lastId);
      NewestKeeps(Selected(all, level, filterRegex, engine), ShowLogLimit, lastId);
      filtered := Scan(all, level, filterRegex, engine);
      ok := true;
    }
  }

  /** The empty-word branch of Filter: the first 100 entries, copied one by one. */
  method TakeNewest(items: seq<Log>) returns (view: seq<Log>)
    ensures view == Newest(items, ShowLogLimit)
  {
    var count := if |items| > ShowLogLimit then ShowLogLimit else |items|;
    view := [];
    for i := 0 to count
      invariant view == items[..i]
    {
      view := view + [items[i]];
    }
  }

  /**
   * The regex branch of Filter: a scan from the newest entry that collects
   * the accepted ones and stops as soon as it holds 100.
   */
  method Scan(items: seq<Log>, mask: int, re: Option<string>, e: Engine) returns (view: seq<Log>)
    ensures view == Newest(Selected(items, mask, re, e), ShowLogLimit)
  {
    view := [];
    var i := 0;
    while i < |items|
      invariant 0 <= i <= |items|
      invariant view == Selected(items[..i], mask, re, e)
      invariant |view| < ShowLogLimit
    {
      var log := items[i];
      SelectedStep(items, i, mask, re, e);
      if Accepts(log, mask, re, e) {
        view := view + [log];
        if |view| >= ShowLogLimit {
          NewestOfFullPrefix(items, i + 1, ShowLogLimit, mask, re, e);
          return;
        }
      }
      i := i + 1;
    }
    assert items[..i] == items;
  }

  /** A prefix of a list with decreasing ids bounded by n keeps both properties. */
  lemma NewestKeeps(s: seq<Log>, k: nat, n: int)
    requires Decreasing(s) && IdsAtMost(s, n)
    ensures |Newest(s, k)| <= k
    ensures Decreasing(Newest(s, k)) && IdsAtMost(Newest(s, k), n)
  {
  }

  /**
   * After Clear(true) the view is empty; the next entry written shows in
   * the view exactly when its level passes the mask, which Clear kept.
   */
  method ClearThenWrite(logger: Logger, level: Severity, message: string, stack: string, scene: string, now: int)
    returns (r: Result<Log, StackError>)
    requires logger.Valid()
    modifies logger
    ensures logger.Valid()
    ensures r.Failure? ==> logger.filtered == []
    ensures r.Success? ==> (|logger.filtered| == 1 <==> Passes(level, logger.filterLevel))
  {
    logger.Clear(true, now);
    var n := logger.Count();
    assert n == 0;
    r := logger.Write(level, message, stack, scene, now);
  }
}

=== FILE: EditorWindow.dfy ===
/**
 * The newer console window (UniConsoleEditor): each GUI pass asks the render
 * for an action, clears at once or schedules a filter, and runs the
 * scheduled filter only once the search has been quiet for 300 ms. The
 * Unity log callback maps a message's LogType onto a severity.
 */
module EditorWindow {
  import opened Wrappers
  import opened Text
  import opened Levels
  import UnityLog
  import opened StackTrace
  import opened EditorLog

  /** The quiet period, in milliseconds, a scheduled filter waits for. */
  const Quiet: int := 300

  datatype UIAction = Noop | LogClear | LogFilter

  /**
   * The render's action for one pass. Its three checks run in the order
   * search field, Clear button, level toggles, each overwriting the action:
   * a changed mask wins, then a Clear press, then a changed word.
   */
  function ActionOf(oldWord: string, word: string, clearPressed: bool, oldLevel: int, level: int): (a: UIAction)
    ensures a == LogFilter <==> level != oldLevel || (!clearPressed && word != oldWord)
    ensures a == LogClear <==> level == oldLevel && clearPressed
    ensures a == Noop <==> level == oldLevel && !clearPressed && word == oldWord
  {
    if level != oldLevel then LogFilter
    else if clearPressed then LogClear
    else if word != oldWord then LogFilter
    else Noop
  }

  /** Two settings of the three toggles give the same mask only when they are the same settings. */
  lemma MaskChangesWithToggles(d1: bool, w1: bool, e1: bool, d2: bool, w2: bool, e2: bool)
    ensures LevelMask(d1, w1, e1) == LevelMask(d2, w2, e2) <==> d1 == d2 && w1 == w2 && e1 == e2
  {
    if LevelMask(d1, w1, e1) == LevelMask(d2, w2, e2) {
      assert Shown(Debug, d1, w1, e1) == Shown(Debug, d2, w2, e2);
      assert Shown(Warn, d1, w1, e1) == Shown(Warn, d2, w2, e2);
      assert Shown(Error, d1, w1, e1) == Shown(Error, d2, w2, e2);
    }
  }

  /**
   * The render starts with mask 0, so its first pass with any toggle on
   * (all three are on initially) schedules a filter.
   */
  lemma FirstPassSchedulesFilter(word: string, clearPressed: bool, debug: bool, warn: bool, error: bool)
    requires debug || warn || error
    ensures ActionOf("", word, clearPressed, 0, LevelMask(debug, warn, error)) == LogFilter
  {
    var mask := LevelMask(debug, warn, error);
    if debug { assert Passes(Debug, mask); }
    if warn { assert Passes(Warn, mask); }
    if error { assert Passes(Error, mask); }
  }

  /** The delay stopwatch: stopped (reading 0 since its last reset) or running since `start`. */
  datatype Watch = Stopped | Running(start: int)

  function Elapsed(w: Watch, now: int): int
  {
    match w
    case Stopped => 0
    case Running(start) => now - start
  }

  /** The stopwatch and whether the delayed action is still the scheduled filter. */
  datatype Debounce = Debounce(watch: Watch, pending: bool)

  datatype Step = Step(next: Debounce, fires: bool)

  /**
   * The debounce part of one GUI pass that gets past the render. An edit
   * restarts the watch and schedules the filter. Then, when the watch reads
   * 300 ms or more, it is reset and the delayed action runs and is replaced
   * by a no-op: `fires` says it was the filter.
   */
  function Tick(d: Debounce, edit: bool, now: int): (s: Step)
    ensures s.fires <==> !edit && d.pending && d.watch.Running? && now - d.watch.start >= Quiet
    ensures edit ==> s.next == Debounce(Running(now), true)
    ensures s.fires ==> s.next == Debounce(Stopped, false)
    ensures !edit && !s.fires ==>
      s.next.pending == d.pending && (s.next.watch == d.watch || s.next.watch == Stopped)
  {
    var d1 := if edit then Debounce(Running(now), true) else d;
    if Elapsed(d1.watch, now) >= Quiet then
      Step(Debounce(Stopped, false), d1.pending)
    else
      Step(d1, false)
  }

  /** One GUI pass that gets past the render, as the debounce sees it. */
  datatype Input = Input(edit: bool, now: int)

  /** How many passes run the filter, from state d. */
  function Fires(d: Debounce, inputs: seq<Input>): nat
    decreases |inputs|
  {
    if inputs == [] then 0
    else
      var s := Tick(d, inputs[0].edit, inputs[0].now);
      (if s.fires then 1 else 0) + Fires(s.next, inputs[1..])
  }

  function Edits(inputs: seq<Input>): nat
  {
    if inputs == [] then 0 else (if inputs[0].edit then 1 else 0) + Edits(inputs[1..])
  }

  /** A filter is armed when it is scheduled and the watch is counting towards it. */
  function Armed(d: Debounce): nat
  {
    if d.pending && d.watch.Running? then 1 else 0
  }

  /**
   * The filter runs at most once per edit, plus once for a filter already
   * armed: every run disarms the filter, and only an edit arms it again.
   */
  lemma {:induction false} FiresAtMostEdits(d: Debounce, inputs: seq<Input>)
    ensures Fires(d, inputs) <= Edits(inputs) + Armed(d)
    decreases |inputs|
  {
    if inputs != [] {
      var x := inputs[0];
      var s := Tick(d, x.edit, x.now);
      FiresAtMostEdits(s.next, inputs[1..]);
      if !x.edit && !s.fires {
        assert Armed(s.next) <= Armed(d);
      }
    }
  }

  /** With nothing armed, passes without edits never run the filter. */
  lemma NoEditNoFire(d: Debounce, inputs: seq<Input>)
    requires Armed(d) == 0 && Edits(inputs) == 0
    ensures Fires(d, inputs) == 0
  {
    FiresAtMostEdits(d, inputs);
  }

  /** The window title: "UniCon " and the number of entries in the view. */
  function Title(count: int): string
  {
    "UniCon " + IntToString(count)
  }

  /** The title reads back as the count it shows. */
  lemma TitleShowsCount(count: int)
    requires Int32Min <= count <= Int32Max
    ensures |Title(count)| > 7 && Title(count)[..7] == "UniCon "
    ensures ParseInt(Title(count)[7..]) == Some(count)
  {
    assert Title(count)[7..] == IntToString(count);
    ParseIntToString(count);
  }

  /**
   * The window: the logger, the render's search word and level mask (the
   * values its last pass saw), the delay stopwatch and whether the delayed
   * action is the filter.
   */
  class UniConsoleEditor {
    const logger: Logger
    var word: string
    var level: int
    var watch: Watch
    var pending: bool

    ghost predicate Valid()
      reads this, logger
    {
      logger.Valid()
    }

    constructor (engine: Matcher.Engine, now: int)
      ensures Valid() && fresh(logger) && logger.engine == engine
      ensures logger.all == [] && logger.filtered == [] && logger.filterLevel == All
      ensures word == "" && level == 0 && watch == Stopped && !pending
    {
      logger := new Logger(engine, now);
      word, level := "", 0;
      watch, pending := Stopped, false;
    }

    /**
     * OnGUI: the render reports the word typed, the Clear press and the
     * three toggles, then compiles the word to draw the view. An invalid
     * word makes it throw: the pass skips the action and the delayed
     * action and only draws the title. Otherwise a Clear empties the logger
     * at once (keeping its regex); an edit of the word or the mask
     * schedules the filter, which runs with the word and mask of the pass
     * it fires in. Returns the title drawn for the pass.
     */
    method OnGUI(newWord: string, clearPressed: bool, debug: bool, warn: bool, error: bool, now: int)
      returns (title: string)
      requires Valid()
      modifies this, logger
      ensures Valid()
      ensures word == newWord && level == LevelMask(debug, warn, error)
      ensures logger.lastId == old(logger.lastId)
      ensures title == Title(|logger.filtered|)
      ensures !Matcher.Compiles(logger.engine, newWord) ==>
        && watch == old(watch) && pending == old(pending)
        && logger.all == old(logger.all) && logger.filtered == old(logger.filtered)
        && logger.filterRegex == old(logger.filterRegex) && logger.filterLevel == old(logger.filterLevel)
        && logger.clockStart == old(logger.clockStart)
      ensures Matcher.Compiles(logger.engine, newWord) ==>
        var a := ActionOf(old(word), newWord, clearPressed, old(level), level);
        var s := Tick(Debounce(old(watch), old(pending)), a == LogFilter, now);
        && watch == s.next.watch && pending == s.next.pending
        && (a == LogClear ==>
              logger.all == [] && logger.clockStart == now
              && (!s.fires ==> logger.filtered == [] && logger.filterRegex == old(logger.filterRegex)))
        && (a != LogClear ==>
              logger.all == old(logger.all) && logger.clockStart == old(logger.clockStart))
        && (!s.fires ==>
              logger.filterLevel == old(logger.filterLevel))
        && (!s.fires && a != LogClear ==>
              logger.filtered == old(logger.filtered) && logger.filterRegex == old(logger.filterRegex))
        && (s.fires ==>
              logger.filterLevel == level
              && (newWord == [] ==>
                    logger.filterRegex == None && logger.filtered == Newest(logger.all, ShowLogLimit))
              && (newWord != [] ==>
                    logger.filterRegex == Some(newWord)
                    && logger.filtered == Newest(Selected(logger.all, level, Some(newWord), logger.engine), ShowLogLimit)))
    {
      var mask := LevelMask(debug, warn, error);
      var action := ActionOf(word, newWord, clearPressed, level, mask);
      word, level := newWord, mask;

      if Matcher.Compiles(logger.engine, word) {
        if action == LogClear {
          logger.Clear(false, now);
        } else if action == LogFilter {
          watch := Running(now);
          pending := true;
        }

        if Elapsed(watch, now) >= Quiet {
          watch := Stopped;
          if pending {
            var ok := logger.Filter(word, level);
            pending := !ok;
          }
        }
      }

      var n := logger.Count();
      title := Title(n);
    }

    /**
     * addLog, the Unity log callback: Error, Exception and Assert are
     * written as errors, Warning as a warning, anything else as debug.
     */
    method AddLog(condition: string, stackTrace: string, logType: UnityLog.LogType, scene: string, now: int)
      returns (r: Result<Log, StackError>)
      requires Valid()
      modifies logger
      ensures Valid()
      ensures logger.lastId == old(logger.lastId) + 1
      ensures logger.filterRegex == old(logger.filterRegex) && logger.filterLevel == old(logger.filterLevel)
      ensures logger.clockStart == old(logger.clockStart)
      ensures r.Failure? <==> ParseStack(stackTrace).Failure?
      ensures r.Failure? ==> logger.all == old(logger.all) && logger.filtered == old(logger.filtered)
      ensures r.Success? ==> BuiltFrom(r.value, logger.lastId, UnityLog.SeverityOf(logType), now - logger.clockStart, scene, condition, stackTrace)
      ensures r.Success? ==> forall i :: 0 <= i < |r.value.stacks| ==> fresh(r.value.stacks[i]) && Unloaded(r.value.stacks[i])
      ensures r.Success? ==> logger.all == PushCapped(r.value, old(logger.all), LogLimit)
      ensures r.Success? ==> (logger.filtered ==
        if Accepts(r.value, logger.filterLevel, logger.filterRegex, logger.engine)
        then PushCapped(r.value, old(logger.filtered), ShowLogLimit)
        else old(logger.filtered))
    {
      r := logger.Write(UnityLog.SeverityOf(logType), condition, stackTrace, scene, now);
    }
  }
}

=== FILE: Levels.dfy ===
/**
 * Severity levels of a console entry and the bitmask a filter tests them
 * against (Log.Debug = 1, Log.Warn = 2, Log.Error = 4, Log.All = 7).
 */
module Levels {

  datatype Severity = Debug | Warn | Error

  const DebugBit: int := 1
  const WarnBit: int := 2
  const ErrorBit: int := 4
  const All: int := DebugBit + WarnBit + ErrorBit

  /** The single-bit flag that stands for a severity. */
  function Bit(s: Severity): (b: int)
    ensures b == 1 || b == 2 || b == 4
  {
    match s
    case Debug => DebugBit
    case Warn => WarnBit
    case Error => ErrorBit
  }

  /**
   * `(level & mask) > 0` on 32-bit integers. The level is one bit b, so the
   * test asks whether bit b of the two's-complement mask is set; Dafny's `/`
   * rounds down for a positive divisor, so (mask / b) % 2 is that bit for
   * negative masks as well.
   */
  predicate Passes(s: Severity, mask: int)
  {
    match s
    case Debug => mask % 2 == 1
    case Warn => (mask / 2) % 2 == 1
    case Error => (mask / 4) % 2 == 1
  }

  /** Each case of Passes divides by the severity's own bit. */
  lemma PassesIsBitTest(s: Severity, mask: int)
    ensures Passes(s, mask) <==> (mask / Bit(s)) % 2 == 1
  {
  }

  /** The severities the three toggles DEBUG, WARN and ERROR show. */
  predicate Shown(s: Severity, debug: bool, warn: bool, error: bool)
  {
    match s
    case Debug => debug
    case Warn => warn
    case Error => error
  }

  /**
   * The level mask built from the three toggles of the option bar: exactly
   * the toggled severities pass it.
   */
  function LevelMask(debug: bool, warn: bool, error: bool): (mask: int)
    ensures 0 <= mask <= All
    ensures forall s :: Passes(s, mask) <==> Shown(s, debug, warn, error)
  {
    (if debug then 1 else 0) + (if warn then 2 else 0) + (if error then 4 else 0)
  }

  /** Every severity passes the mask All; none passes the empty mask. */
  lemma AllAndNothing(s: Severity)
    ensures Passes(s, All)
    ensures !Passes(s, 0)
  {
  }
}

/** The host engine's classification of a log event (UnityEngine.LogType). */
module UnityLog {
  import Levels

  datatype LogType = Error | Assert | Warning | Log | Exception

  /**
   * The console's log callback (addLog): errors, exceptions and failed
   * assertions are Error entries, warnings are Warn entries, anything else is Debug.
   */
  function SeverityOf(t: LogType): (s: Levels.Severity)
    ensures s == Levels.Error <==> t in {Error, Exception, Assert}
    ensures s == Levels.Warn <==> t == Warning
    ensures s == Levels.Debug <==> t == Log
  {
    match t
    case Error => Levels.Error
    case Exception => Levels.Error
    case Assert => Levels.Error
    case Warning => Levels.Warn
    case _ => Levels.Debug
  }
}

/**
 * The regular-expression engine the console compiles its search word with.
 * Its semantics (case-insensitive .NET regular expressions) are not part of
 * this model: `valid` says whether a pattern compiles, `isMatch` whether a
 * compiled pattern matches a text.
 */
module Matcher {

  datatype Engine = Engine(valid: string -> bool, isMatch: (string, string) -> bool)

  /** `new Regex(word)` succeeds: an empty word always compiles. */
  predicate Compiles(e: Engine, word: string)
  {
    word == [] || e.valid(word)
  }
}

=== FILE: StackTrace.dfy ===
/**
 * The stack-trace parser of the newer console: the call sites of a log
 * entry's stack text (the Log constructor's loop) and the location split of
 * each call site (the StackLine constructor), plus the StackLine object with
 * its load-once source-line cache.
 */
module StackTrace {
  import opened Wrappers
  import opened Text

  /** The text between a call's method part and its location part. */
  const AtDelimiter: string := ") (at "
  /** The message of the exception an out-of-range line number raises. */
  const IndexOutOfRange: string := "Index was outside the bounds of the array."

  datatype Location = Location(path: string, file: string, line: int)

  /**
   * The location part of a call site, "path:line": the path is the text
   * before the first ':', the file its base name, and the line the number
   * between the first and second ':', or 1 when that is not a number; with
   * no ':' at all the path and file are empty and the line is 1.
   */
  function ParseLocation(loc: string): Location
  {
    var fx := Split(loc, ':');
    if |fx| >= 2 then
      var line := match ParseInt(fx[1]) case Some(n) => n case None => 1;
      Location(fx[0], FileName(fx[0]), line)
    else
      Location("", "", 1)
  }

  /**
   * The path is the text before the first ':' and the file its base name;
   * a location without ':' has an empty path and file, and line 1.
   */
  lemma ParseLocationShape(loc: string)
    ensures var r := ParseLocation(loc);
      && ':' !in r.path && r.file == FileName(r.path)
      && (':' in loc ==> r.path + ":" <= loc)
      && (':' !in loc ==> r == Location("", "", 1))
  {
    var fx := Split(loc, ':');
    if |fx| >= 2 {
      JoinSplit(loc, ':');
      assert loc == fx[0] + [':'] + Join(fx[1..], ':');
    }
  }

  /**
   * A location "path:lineText" followed by nothing or by more ':'-separated
   * text gives that path, its base name, and the parsed line or 1.
   */
  lemma {:induction false} ParseLocationParts(path: string, lineText: string, more: string)
    requires ':' !in path && ':' !in lineText
    requires more == [] || more[0] == ':'
    ensures ParseLocation(path + ":" + lineText + more)
      == Location(path, FileName(path), match ParseInt(lineText) case Some(n) => n case None => 1)
  {
    var t := lineText + more;
    assert path + ":" + lineText + more == path + [':'] + t;
    SplitAfterPiece(path, ':', t);
    if more == [] {
      assert t == lineText;
    } else {
      assert t == lineText + [':'] + more[1..];
      SplitAfterPiece(lineText, ':', more[1..]);
    }
  }

  /** A location "path:text" whose text parses as the number n gives that path and n. */
  lemma ParseLocationNumber(path: string, lineText: string, n: int)
    requires ':' !in path && ':' !in lineText && ParseInt(lineText) == Some(n)
    ensures ParseLocation(path + ":" + lineText) == Location(path, FileName(path), n)
  {
    var loc := path + ":" + lineText;
    assert loc == path + [':'] + lineText;
    SplitAfterPiece(path, ':', lineText);
    assert Split(lineText, ':') == [lineText];
    var fx := Split(loc, ':');
    assert fx == [path, lineText];
    assert |fx| >= 2 && fx[0] == path && fx[1] == lineText;
  }

  /** A location written as path ':' number parses back to that path and number. */
  lemma LocationRoundTrip(path: string, n: int)
    requires ':' !in path
    requires Int32Min <= n <= Int32Max
    ensures ParseLocation(path + ":" + IntToString(n)) == Location(path, FileName(path), n)
  {
    var s := IntToString(n);
    ParseIntToString(n);
    assert ':' !in s by {
      forall i | 0 <= i < |s|
        ensures s[i] != ':'
      {
        assert IsDigit(s[i]) || s[i] == '-';
      }
    }
    ParseLocationNumber(path, s, n);
  }

  /** The immutable part of a parsed call site (a StackLine without its cache). */
  datatype Frame = Frame(methodName: string, path: string, file: string, line: int, fileLine: string)

  /** A StackLine's fields from its location text and normalised method name. */
  function FrameOf(location: string, methodName: string): Frame
  {
    var loc := ParseLocation(location);
    Frame(methodName, loc.path, loc.file, loc.line, loc.file + ":" + IntToString(loc.line))
  }

  /** A base name holds no ':' when its path holds none. */
  lemma FileNameNoColon(path: string)
    requires ':' !in path
    ensures ':' !in FileName(path)
  {
  }

  /** A base name is its own base name. */
  lemma {:induction false} FileNameOfName(name: string)
    requires forall i :: 0 <= i < |name| ==> !IsSeparator(name[i])
    ensures FileName(name) == name
  {
    if name != [] {
      FileNameOfName(name[..|name| - 1]);
      assert name[..|name| - 1] + [name[|name| - 1]] == name;
    }
  }

  /** The FileLine shown for a frame parses back to the frame's file and line. */
  lemma FileLineRoundTrip(location: string, methodName: string)
    ensures var f := FrameOf(location, methodName);
      ParseLocation(f.fileLine) == Location(f.file, f.file, f.line)
  {
    var f := FrameOf(location, methodName);
    var fx := Split(location, ':');
    if |fx| >= 2 {
      FileNameNoColon(fx[0]);
    }
    FileNameOfName(f.file);
    LocationRoundTrip(f.file, f.line);
  }

  datatype StackError = MethodWithoutParen(methodPart: string)

  /**
   * The method part of a call site with its argument list replaced by "()":
   * the text before the last '(' followed by "()". A method part without '('
   * makes Substring(0, -1) throw.
   */
  function NormalizeMethod(m: string): (r: Result<string, StackError>)
    ensures r.Failure? <==> '(' !in m
    ensures r.Success? ==>
      var k := |r.value| - 2;
      0 <= k < |m| && r.value == m[..k] + "()" && m[k] == '(' && '(' !in m[k + 1..]
  {
    var k := LastIndexOf(m, '(');
    if k < 0 then Failure(MethodWithoutParen(m)) else Success(m[..k] + "()")
  }

  /** A call site: the location text (closing parenthesis dropped) and the normalised method. */
  datatype CallSite = CallSite(location: string, methodName: string)

  /**
   * One line of stack text: None when it is not a call site, the exception
   * when its method part has no '(', else the call site.
   */
  function ParseLine(line: string): (r: Option<Result<CallSite, StackError>>)
    ensures (forall i :: !MatchAt(line, AtDelimiter, i)) ==> r.None?
    ensures r.Some? <==> SplitOnce(line, AtDelimiter).Some?
    ensures r.Some? ==> (r.value.Failure? <==> '(' !in SplitOnce(line, AtDelimiter).value.0)
    ensures r.Some? && r.value.Success? ==>
      var (m, rest) := SplitOnce(line, AtDelimiter).value;
      r.value.value.location == rest[..|rest| - 1] && NormalizeMethod(m) == Success(r.value.value.methodName)
  {
    match SplitOnce(line, AtDelimiter)
    case None => None
    case Some((m, file)) =>
      match NormalizeMethod(m)
      case Failure(e) => Some(Failure(e))
      case Success(name) => Some(Success(CallSite(file[..|file| - 1], name)))
  }

  /** The frames one stack line contributes: none, one, or the exception its call site raises. */
  function LineFrames(line: string): Result<seq<Frame>, StackError>
  {
    match ParseLine(line)
    case None => Success([])
    case Some(Failure(e)) => Failure(e)
    case Some(Success(cs)) => Success([FrameOf(cs.location, cs.methodName)])
  }

  /**
   * A line throws exactly when its call site's method part has no '(';
   * otherwise it gives one frame when it is a call site and none when not.
   */
  lemma LineFramesCases(line: string)
    ensures var r := LineFrames(line);
      && (r.Failure? <==> ParseLine(line).Some? && '(' !in SplitOnce(line, AtDelimiter).value.0)
      && (r.Success? ==> |r.value| == (if ParseLine(line).Some? then 1 else 0))
  {
  }

  /** Parsing two runs of lines one after the other: the first failure wins, else the frames concatenate. */
  function Combine(a: Result<seq<Frame>, StackError>, b: Result<seq<Frame>, StackError>): Result<seq<Frame>, StackError>
  {
    if a.Failure? then a else if b.Failure? then b else Success(a.value + b.value)
  }

  /** The frames of a sequence of stack lines, in line order; the first bad call site throws. */
  function ParseLines(lines: seq<string>): Result<seq<Frame>, StackError>
  {
    if lines == [] then Success([]) else Combine(LineFrames(lines[0]), ParseLines(lines[1..]))
  }

  /** The frames of a raw stack text: its '\n'-separated lines, parsed in order. */
  function ParseStack(stack: string): Result<seq<Frame>, StackError>
  {
    ParseLines(Split(stack, '\n'))
  }

  /** No frames is neutral on both sides of Combine. */
  lemma CombineEmpty(b: Result<seq<Frame>, StackError>)
    ensures Combine(Success([]), b) == b
    ensures Combine(b, Success([])) == b
  {
    if b.Success? {
      assert [] + b.value == b.value;
      assert b.value + [] == b.value;
    }
  }

  lemma CombineAssociative(x: Result<seq<Frame>, StackError>, y: Result<seq<Frame>, StackError>, z: Result<seq<Frame>, StackError>)
    ensures Combine(x, Combine(y, z)) == Combine(Combine(x, y), z)
  {
    if x.Success? && y.Success? && z.Success? {
      assert x.value + (y.value + z.value) == (x.value + y.value) + z.value;
    }
  }

  /** Frames keep the order of their lines: parsing a + b is parsing a, then b. */
  lemma {:induction false} ParseLinesAppend(a: seq<string>, b: seq<string>)
    ensures ParseLines(a + b) == Combine(ParseLines(a), ParseLines(b))
  {
    if a == [] {
      assert a + b == b;
      CombineEmpty(ParseLines(b));
    } else {
      assert (a + b)[0] == a[0] && (a + b)[1..] == a[1..] + b;
      ParseLinesAppend(a[1..], b);
      CombineAssociative(LineFrames(a[0]), ParseLines(a[1..]), ParseLines(b));
    }
  }

  /** Lines that are not call sites produce no frames. */
  lemma {:induction false} NonCallLinesGiveNoFrames(lines: seq<string>)
    requires forall i :: 0 <= i < |lines| ==> ParseLine(lines[i]).None?
    ensures ParseLines(lines) == Success([])
  {
    if lines != [] {
      NonCallLinesGiveNoFrames(lines[1..]);
      assert LineFrames(lines[0]) == Success([]);
      CombineEmpty(Success([]));
    }
  }

  /** The number of frames is the number of call-site lines. */
  function CallLines(lines: seq<string>): nat
  {
    if lines == [] then 0
    else (if ParseLine(lines[0]).Some? then 1 else 0) + CallLines(lines[1..])
  }

  lemma {:induction false} FrameCount(lines: seq<string>)
    requires ParseLines(lines).Success?
    ensures |ParseLines(lines).value| == CallLines(lines)
  {
    if lines != [] {
      FrameCount(lines[1..]);
    }
  }

  /** Reading line `line` (1-based, trimmed) of a source text, or the exception the read raises. */
  function LoadLine(text: Result<string, string>, line: int): (r: Result<string, string>)
    ensures text.Failure? ==> r.Failure? && r.error == text.error
    ensures r.Success? <==> text.Success? && 1 <= line <= |Split(text.value, '\n')|
    ensures r.Success? ==> r.value == Trim(Split(text.value, '\n')[line - 1])
  {
    match text
    case Failure(m) => Failure(m)
    case Success(t) =>
      var lines := Split(t, '\n');
      if 1 <= line <= |lines| then Success(Trim(lines[line - 1])) else Failure(IndexOutOfRange)
  }

  /**
   * A parsed call site. Its fields are fixed at construction; the source
   * line shown beside it is read lazily, at most once.
   */
  class StackLine {
    const methodName: string
    const path: string
    const file: string
    const line: int
    const fileLine: string
    var lineCode: string
    var loadFile: bool
    /** How many times the source file has been read for this call site. */
    ghost var loads: nat

    function AsFrame(): Frame
    {
      Frame(methodName, path, file, line, fileLine)
    }

    ghost predicate Valid()
      reads this
    {
      loads == if loadFile then 1 else 0
    }

    constructor (location: string, name: string)
      ensures AsFrame() == FrameOf(location, name)
      ensures Valid() && !loadFile && lineCode == ""
    {
      var loc := ParseLocation(location);
      path := loc.path;
      file := loc.file;
      line := loc.line;
      methodName := name;
      lineCode := "";
      fileLine := loc.file + ":" + IntToString(loc.line);
      loadFile := false;
      loads := 0;
    }

    /**
     * The source line of this call site. The first call sets the load flag
     * and reads the file through `reader` (path to file text, or the message
     * of the exception the load raised); a failure is returned as its
     * message and not cached. Every later call returns the cached text
     * without reading again.
     */
    method LineCode(reader: string -> Result<string, string>) returns (code: string)
      requires Valid()
      modifies this
      ensures Valid() && loadFile && loads <= 1
      ensures old(loadFile) ==> loads == old(loads) && lineCode == old(lineCode) && code == lineCode
      ensures !old(loadFile) ==> (loads == old(loads) + 1 &&
        match LoadLine(reader(path), line)
        case Success(c) => lineCode == c && code == c
        case Failure(m) => lineCode == old(lineCode) && code == m)
    {
      if !loadFile {
        loadFile := true;
        loads := loads + 1;
        match LoadLine(reader(path), line)
        case Failure(m) =>
          code := m;
          return;
        case Success(c) =>
          lineCode := c;
      }
      code := lineCode;
    }
  }

  /**
   * Two reads of a fresh call site's source line: the file is read once; when
   * that read fails, the first call shows the failure and the second the
   * still-empty cache.
   */
  method ReadTwice(s: StackLine, reader: string -> Result<string, string>) returns (first: string, second: string)
    requires s.Valid() && !s.loadFile && s.lineCode == ""
    modifies s
    ensures s.loads == 1
    ensures LoadLine(reader(s.path), s.line).Failure? ==>
      first == LoadLine(reader(s.path), s.line).error && second == ""
    ensures LoadLine(reader(s.path), s.line).Success? ==>
      first == second == LoadLine(reader(s.path), s.line).value
  {
    first := s.LineCode(reader);
    second := s.LineCode(reader);
  }

  /**
   * A line "m) (at rest" whose method part m holds no ')' is split right
   * after m, since the delimiter starts with ')', when rest does not start
   * with a second delimiter.
   */
  lemma SplitCallSite(m: string, rest: string)
    requires m != [] && rest != [] && ')' !in m && rest[0] != ')'
    ensures SplitOnce(m + AtDelimiter + rest, AtDelimiter) == Some((m, rest))
  {
    var s := m + AtDelimiter + rest;
    var k := |m|;
    assert MatchAt(s, AtDelimiter, k) by {
      assert s[k..k + |AtDelimiter|] == AtDelimiter;
    }
    assert !MatchAt(s, AtDelimiter, k + |AtDelimiter|) by {
      assert s[k + |AtDelimiter|] == rest[0];
    }
    forall i | 0 <= i < k
      ensures !MatchAt(s, AtDelimiter, i)
    {
      assert s[i] == m[i];
    }
    assert s[..k] == m && s[k + |AtDelimiter|..] == rest;
    SplitOnceAtFirst(s, AtDelimiter, k);
  }

  /** A line without ')' is not a call site. */
  lemma NoParenNoCallSite(line: string)
    requires ')' !in line
    ensures ParseLine(line).None?
  {
  }

  /** The method part "Type.Method(args" with no '(' in args normalises to "Type.Method()". */
  lemma MethodOfCall(qualified: string, args: string)
    requires '(' !in args
    ensures NormalizeMethod(qualified + "(" + args) == Success(qualified + "()")
  {
    var m := qualified + "(" + args;
    var k := LastIndexOf(m, '(');
    assert m[|qualified|] == '(';
    assert m[..k] == qualified;
  }

  /**
   * A call-site line as the host writes it, "Type.Method(args) (at dir/File.cs:n)",
   * gives one frame: the method with "()" in place of its arguments, the
   * path dir/File.cs, the file File.cs and the line n.
   */
  lemma WellFormedCallSite(qualified: string, args: string, dir: string, name: string, n: int)
    requires ')' !in qualified && '(' !in args && ')' !in args
    requires ':' !in dir && ':' !in name && (dir == [] || dir[0] != ')')
    requires forall i :: 0 <= i < |name| ==> !IsSeparator(name[i])
    requires Int32Min <= n <= Int32Max
    ensures LineFrames(qualified + "(" + args + AtDelimiter + dir + "/" + name + ":" + IntToString(n) + ")")
      == Success([Frame(qualified + "()", dir + "/" + name, name, n, name + ":" + IntToString(n))])
  {
    var m := qualified + "(" + args;
    var path := dir + "/" + name;
    var loc := path + ":" + IntToString(n);
    assert qualified + "(" + args + AtDelimiter + dir + "/" + name + ":" + IntToString(n) + ")"
      == m + AtDelimiter + loc + ")";
    assert ')' !in m;
    assert loc[0] == (if dir == [] then '/' else dir[0]);
    MethodOfCall(qualified, args);
    CallSiteFrames(m, loc, qualified + "()");
    LocationRoundTrip(path, n);
    FileNameAfterSeparator(dir, name);
  }

  /** A call-site line "m) (at loc)" gives the one frame of loc and m's normalised method. */
  lemma CallSiteFrames(m: string, loc: string, name: string)
    requires m != [] && ')' !in m && loc != [] && loc[0] != ')'
    requires NormalizeMethod(m) == Success(name)
    ensures LineFrames(m + AtDelimiter + loc + ")") == Success([FrameOf(loc, name)])
  {
    var rest := loc + ")";
    assert m + AtDelimiter + loc + ")" == m + AtDelimiter + rest;
    SplitCallSite(m, rest);
    assert rest[..|rest| - 1] == loc;
  }
}

=== FILE: Text.dfy ===
/**
 * The string operations of the .NET library that the console relies on,
 * written out: String.Split on a character, a split at the first occurrence
 * of a delimiter, LastIndexOf, Path.GetFileName, int.TryParse, int.ToString
 * and String.Trim.
 */
module Text {
  import opened Wrappers

  // ---------------------------------------------------------------- Split / Join

  /** String.Split(c): the pieces between the occurrences of c, empty pieces kept. */
  function Split(s: string, c: char): (parts: seq<string>)
    ensures |parts| >= 1
    ensures forall i :: 0 <= i < |parts| ==> c !in parts[i]
    ensures |parts| == 1 <==> c !in s
    ensures c !in s ==> parts == [s]
  {
    if s == [] then [""]
    else
      var rest := Split(s[1..], c);
      assert s == [s[0]] + s[1..];
      if s[0] == c then [""] + rest
      else [[s[0]] + rest[0]] + rest[1..]
  }

  /** String.Join(c, parts), the inverse of Split. */
  function Join(parts: seq<string>, c: char): string
    requires |parts| >= 1
  {
    if |parts| == 1 then parts[0] else parts[0] + [c] + Join(parts[1..], c)
  }

  /** Joining the pieces of a split gives back the original text. */
  lemma {:induction false} JoinSplit(s: string, c: char)
    ensures Join(Split(s, c), c) == s
  {
    if s != [] {
      var rest := Split(s[1..], c);
      JoinSplit(s[1..], c);
      if s[0] == c {
        assert Split(s, c) == [""] + rest;
        assert ([""] + rest)[1..] == rest;
      } else {
        var parts := Split(s, c);
        assert parts == [[s[0]] + rest[0]] + rest[1..];
        if |rest| > 1 {
          assert parts[1..] == rest[1..];
        }
      }
    }
  }

  /** A piece without c, then c, then more text: the piece is the first part of the split. */
  lemma {:induction false} SplitAfterPiece(p: string, c: char, t: string)
    requires c !in p
    ensures Split(p + [c] + t, c) == [p] + Split(t, c)
  {
    if p == [] {
      assert [c] + t == p + [c] + t;
      assert ([c] + t)[1..] == t;
    } else {
      SplitAfterPiece(p[1..], c, t);
      var s := p + [c] + t;
      assert s[0] == p[0] && s[1..] == p[1..] + [c] + t;
      var rest := Split(s[1..], c);
      assert rest[0] == p[1..] && rest[1..] == Split(t, c);
      assert [p[0]] + p[1..] == p;
    }
  }

  /** Splitting pieces that were joined with c gives the pieces back. */
  lemma {:induction false} SplitJoin(parts: seq<string>, c: char)
    requires |parts| >= 1
    requires forall i :: 0 <= i < |parts| ==> c !in parts[i]
    ensures Split(Join(parts, c), c) == parts
  {
    if |parts| > 1 {
      SplitJoin(parts[1..], c);
      SplitAfterPiece(parts[0], c, Join(parts[1..], c));
    }
  }

  // ---------------------------------------------------------------- substring search

  /** The text pat occurs in s at position i. */
  predicate MatchAt(s: string, pat: string, i: int)
  {
    0 <= i && i + |pat| <= |s| && s[i..i + |pat|] == pat
  }

  /** The first position at or after from where pat occurs in s. */
  function FindFrom(s: string, pat: string, from: nat): (r: Option<nat>)
    ensures r.Some? ==> from <= r.value && MatchAt(s, pat, r.value)
    ensures r.Some? ==> forall i :: from <= i < r.value ==> !MatchAt(s, pat, i)
    ensures r.None? ==> forall i :: from <= i ==> !MatchAt(s, pat, i)
    decreases |s| - from
  {
    if from + |pat| > |s| then None
    else if s[from..from + |pat|] == pat then Some(from)
    else FindFrom(s, pat, from + 1)
  }

  /** The text t is nothing but whole copies of delim, one after another. */
  predicate Repeats(t: string, delim: string)
    requires |delim| > 0
    decreases |t|
  {
    t == [] || (delim <= t && Repeats(t[|delim|..], delim))
  }

  /** The position after the run of whole delimiters that starts at pos. */
  function SkipDelims(s: string, delim: string, pos: nat): (r: nat)
    requires |delim| > 0 && pos <= |s|
    ensures pos <= r <= |s| && !MatchAt(s, delim, r)
    ensures Repeats(s[pos..r], delim)
    decreases |s| - pos
  {
    if MatchAt(s, delim, pos) then
      var r := SkipDelims(s, delim, pos + |delim|);
      assert s[pos..r][..|delim|] == delim && s[pos..r][|delim|..] == s[pos + |delim|..r];
      r
    else pos
  }

  /**
   * s.Split(new[] { delim }, 2, RemoveEmptyEntries). Empty pieces are
   * dropped: the first piece is the first non-empty text that ends at a
   * delimiter, and the second is all the text after the run of delimiters
   * that ends it. Some only when both pieces exist (two array elements).
   */
  function SplitOnce(s: string, delim: string): (r: Option<(string, string)>)
    requires |delim| > 0
    ensures r.Some? ==> r.value.0 != [] && r.value.1 != []
    ensures r.Some? ==> exists lead, gap :: (Repeats(lead, delim) && Repeats(gap, delim)
      && s == lead + r.value.0 + delim + gap + r.value.1)
    ensures r.Some? ==> forall i :: 0 <= i < |r.value.0| ==> !MatchAt(r.value.0 + delim, delim, i)
    ensures r.Some? ==> !(delim <= r.value.1)
    ensures (forall i :: !MatchAt(s, delim, i)) ==> r.None?
  {
    var p := SkipDelims(s, delim, 0);
    match FindFrom(s, delim, p)
    case None => None
    case Some(k) =>
      var q := SkipDelims(s, delim, k + |delim|);
      if q == |s| then None
      else
        FivePieces(s, delim, p, k, q);
        FirstPieceHasNoDelim(s, delim, p, k);
        SecondPieceNoDelim(s, delim, q);
        Some((s[p..k], s[q..]))
  }

  /** s cut at p, k, k + |delim| and q, where a delimiter starts at k and runs of delimiters fill s[..p] and the gap. */
  lemma FivePieces(s: string, delim: string, p: nat, k: nat, q: nat)
    requires |delim| > 0 && p <= k && k + |delim| <= q <= |s| && MatchAt(s, delim, k)
    requires Repeats(s[..p], delim) && Repeats(s[k + |delim|..q], delim)
    ensures exists lead, gap :: (Repeats(lead, delim) && Repeats(gap, delim)
      && s == lead + s[p..k] + delim + gap + s[q..])
  {
    CutFive(s, delim, p, k, q);
  }

  lemma CutFive(s: string, delim: string, p: nat, k: nat, q: nat)
    requires |delim| > 0 && p <= k && k + |delim| <= q <= |s| && MatchAt(s, delim, k)
    ensures s == s[..p] + s[p..k] + delim + s[k + |delim|..q] + s[q..]
  {
    assert s[..k] == s[..p] + s[p..k];
    assert s[..k + |delim|] == s[..k] + delim;
    assert s[..q] == s[..k + |delim|] + s[k + |delim|..q];
    assert s == s[..q] + s[q..];
  }

  /** No delimiter starts inside the text between p and the first delimiter from p. */
  lemma FirstPieceHasNoDelim(s: string, delim: string, p: nat, k: nat)
    requires |delim| > 0 && p <= k && MatchAt(s, delim, k)
    requires forall i :: p <= i < k ==> !MatchAt(s, delim, i)
    ensures forall i :: 0 <= i < |s[p..k]| ==> !MatchAt(s[p..k] + delim, delim, i)
  {
    var first, w := s[p..k], s[p..k + |delim|];
    assert first + delim == w;
    forall i | 0 <= i < |first|
      ensures !MatchAt(w, delim, i)
    {
      assert !MatchAt(s, delim, p + i);
      SliceOfSlice(s, p, k + |delim|, i, i + |delim|);
    }
  }

  lemma SliceOfSlice(s: string, a: nat, b: nat, i: nat, j: nat)
    requires a <= b <= |s| && i <= j <= b - a
    ensures s[a..b][i..j] == s[a + i..a + j]
  {
    forall t | 0 <= t < j - i
      ensures s[a..b][i..j][t] == s[a + i..a + j][t]
    {
    }
  }

  /** The text after the last skipped delimiter is not empty and does not start with one. */
  lemma SecondPieceNoDelim(s: string, delim: string, q: nat)
    requires |delim| > 0 && q < |s| && !MatchAt(s, delim, q)
    ensures s[q..] != [] && !(delim <= s[q..])
  {
    assert delim <= s[q..] ==> MatchAt(s, delim, q);
  }

  /**
   * The usual case: the first delimiter is preceded by text and followed by
   * text that does not start with another delimiter; the split is at it.
   */
  lemma SplitOnceAtFirst(s: string, delim: string, k: nat)
    requires |delim| > 0 && 0 < k && k + |delim| < |s|
    requires MatchAt(s, delim, k) && !MatchAt(s, delim, k + |delim|)
    requires forall i :: 0 <= i < k ==> !MatchAt(s, delim, i)
    ensures SplitOnce(s, delim) == Some((s[..k], s[k + |delim|..]))
  {
    assert SkipDelims(s, delim, 0) == 0;
    var f := FindFrom(s, delim, 0);
    assert f.Some?;
    if f.value < k {
      assert false;
    } else if f.value > k {
      assert false;
    }
    assert SkipDelims(s, delim, k + |delim|) == k + |delim|;
  }

  // ---------------------------------------------------------------- LastIndexOf

  /** String.LastIndexOf(c): the last position of c in s, or -1 when c does not occur. */
  function LastIndexOf(s: string, c: char): (r: int)
    ensures -1 <= r < |s|
    ensures r == -1 <==> c !in s
    ensures r >= 0 ==> s[r] == c && c !in s[r + 1..]
  {
    if s == [] then -1
    else if s[|s| - 1] == c then |s| - 1
    else
      var r := LastIndexOf(s[..|s| - 1], c);
      assert s == s[..|s| - 1] + [s[|s| - 1]];
      assert r >= 0 ==> s[r + 1..] == s[..|s| - 1][r + 1..] + [s[|s| - 1]];
      r
  }

  // ---------------------------------------------------------------- Path.GetFileName

  predicate IsSeparator(ch: char)
  {
    ch == '/' || ch == '\\'
  }

  /** Path.GetFileName: the part of path after its last '/' or '\'. */
  function FileName(path: string): (name: string)
    ensures |name| <= |path| && name == path[|path| - |name|..]
    ensures forall i :: 0 <= i < |name| ==> !IsSeparator(name[i])
    ensures |name| < |path| ==> IsSeparator(path[|path| - |name| - 1])
  {
    if path == [] || IsSeparator(path[|path| - 1]) then []
    else
      var init, last := path[..|path| - 1], path[|path| - 1];
      var rest := FileName(init);
      assert path == init + [last];
      assert rest + [last] == path[|init| - |rest|..];
      rest + [last]
  }

  /** The base name of dir/name is name, whatever the directory. */
  lemma {:induction false} FileNameAfterSeparator(dir: string, name: string)
    requires forall i :: 0 <= i < |name| ==> !IsSeparator(name[i])
    ensures FileName(dir + "/" + name) == name
  {
    var path := dir + "/" + name;
    if name != [] {
      var init := name[..|name| - 1];
      FileNameAfterSeparator(dir, init);
      assert path[..|path| - 1] == dir + "/" + init;
      assert init + [name[|name| - 1]] == name;
    }
  }

  // ---------------------------------------------------------------- int.TryParse / ToString

  const Int32Min: int := -0x8000_0000
  const Int32Max: int := 0x7fff_ffff

  predicate IsDigit(ch: char)
  {
    '0' <= ch <= '9'
  }

  predicate AllDigits(s: string)
  {
    forall i :: 0 <= i < |s| ==> IsDigit(s[i])
  }

  function DigitChar(d: nat): (ch: char)
    requires d < 10
    ensures IsDigit(ch)
  {
    ('0' as int + d) as char
  }

  /** The value of a string of decimal digits. */
  function DigitsValue(s: string): nat
    requires AllDigits(s)
  {
    if s == [] then 0
    else DigitsValue(s[..|s| - 1]) * 10 + (s[|s| - 1] as int - '0' as int)
  }

  /**
   * int.TryParse: an optional sign followed by decimal digits, whose value
   * fits in 32 bits; None when parsing fails.
   */
  function ParseInt(s: string): (r: Option<int>)
    ensures r.Some? ==> Int32Min <= r.value <= Int32Max
    ensures r.Some? ==> s != [] && (AllDigits(s) || ((s[0] == '-' || s[0] == '+') && |s| > 1 && AllDigits(s[1..])))
    ensures s != [] && AllDigits(s) && DigitsValue(s) <= Int32Max ==> r == Some(DigitsValue(s))
    ensures |s| > 1 && s[0] == '+' && AllDigits(s[1..]) && DigitsValue(s[1..]) <= Int32Max ==> r == Some(DigitsValue(s[1..]))
    ensures |s| > 1 && s[0] == '-' && AllDigits(s[1..]) && DigitsValue(s[1..]) <= -Int32Min ==> r == Some(-(DigitsValue(s[1..]) as int))
    ensures r.Some? ==> (r.value ==
      if s[0] == '-' then -(DigitsValue(s[1..]) as int)
      else if s[0] == '+' then DigitsValue(s[1..]) as int
      else DigitsValue(s) as int)
  {
    var signed := |s| > 0 && (s[0] == '-' || s[0] == '+');
    var body := if signed then s[1..] else s;
    if body == [] || !AllDigits(body) then None
    else
      var v: int := if |s| > 0 && s[0] == '-' then -(DigitsValue(body) as int) else DigitsValue(body);
      if Int32Min <= v <= Int32Max then Some(v) else None
  }

  /** The decimal digits of n, without leading zeros. */
  function NatToString(n: nat): (s: string)
    ensures |s| >= 1 && AllDigits(s)
    ensures s[0] == '0' <==> n == 0
    ensures n == 0 ==> s == "0"
  {
    if n < 10 then [DigitChar(n)] else NatToString(n / 10) + [DigitChar(n % 10)]
  }

  /** int.ToString: a minus sign for negative numbers, then the digits. */
  function IntToString(n: int): (s: string)
    ensures s != [] && (s[0] == '-' <==> n < 0)
    ensures AllDigits(if n < 0 then s[1..] else s)
    ensures forall i :: 0 < i < |s| ==> IsDigit(s[i])
    ensures s[0] == '-' ==> |s| > 1 && s[1] != '0'
    ensures s[0] == '0' ==> s == "0"
  {
    if n < 0 then "-" + NatToString(-n) else NatToString(n)
  }

  /** Reading back the digits that NatToString writes gives the number. */
  lemma {:induction false} DigitsValueOfNatToString(n: nat)
    ensures DigitsValue(NatToString(n)) == n
  {
    if n >= 10 {
      DigitsValueOfNatToString(n / 10);
      var s := NatToString(n);
      assert s[..|s| - 1] == NatToString(n / 10);
    }
  }

  /** int.TryParse reads back every 32-bit number that ToString writes. */
  lemma ParseIntToString(n: int)
    requires Int32Min <= n <= Int32Max
    ensures ParseInt(IntToString(n)) == Some(n)
  {
    if n < 0 {
      var body := NatToString(-n);
      var s := "-" + body;
      DigitsValueOfNatToString(-n);
      assert s == IntToString(n);
      assert s[0] == '-' && s[1..] == body;
      assert body != [] && AllDigits(body);
      assert -(DigitsValue(body) as int) == n;
    } else {
      var s := NatToString(n);
      DigitsValueOfNatToString(n);
      assert s == IntToString(n);
      assert s != [] && AllDigits(s) && !(s[0] == '-' || s[0] == '+');
    }
  }

  // ---------------------------------------------------------------- Trim

  /** The white-space characters that Trim removes: space, tab, line feed, vertical tab, form feed, carriage return. */
  predicate IsWhiteSpace(ch: char)
  {
    ch == ' ' || '\t' <= ch <= '\r'
  }

  predicate AllWhiteSpace(t: string)
  {
    forall i :: 0 <= i < |t| ==> IsWhiteSpace(t[i])
  }

  function TrimStart(s: string): (r: string)
    ensures |r| <= |s| && r == s[|s| - |r|..]
    ensures forall i :: 0 <= i < |s| - |r| ==> IsWhiteSpace(s[i])
    ensures r == [] || !IsWhiteSpace(r[0])
  {
    if s != [] && IsWhiteSpace(s[0]) then TrimStart(s[1..]) else s
  }

  function TrimEnd(s: string): (r: string)
    ensures |r| <= |s| && r == s[..|r|]
    ensures forall i :: |r| <= i < |s| ==> IsWhiteSpace(s[i])
    ensures r == [] || !IsWhiteSpace(r[|r| - 1])
  {
    if s != [] && IsWhiteSpace(s[|s| - 1]) then TrimEnd(s[..|s| - 1]) else s
  }

  /** String.Trim: s without its leading white space (TrimStart), then without its trailing white space (TrimEnd). */
  function Trim(s: string): (r: string)
    ensures |r| <= |s|
    ensures exists lead, trail :: s == lead + r + trail && AllWhiteSpace(lead) && AllWhiteSpace(trail)
    ensures r == [] || (!IsWhiteSpace(r[0]) && !IsWhiteSpace(r[|r| - 1]))
  {
    var t := TrimStart(s);
    var r := TrimEnd(t);
    TrimParts(s, t, r);
    r
  }

  /** The trimmed text sits between a white-space lead and a white-space trail. */
  lemma TrimParts(s: string, t: string, r: string)
    requires |t| <= |s| && t == s[|s| - |t|..] && forall i :: 0 <= i < |s| - |t| ==> IsWhiteSpace(s[i])
    requires |r| <= |t| && r == t[..|r|] && forall i :: |r| <= i < |t| ==> IsWhiteSpace(t[i])
    ensures exists lead, trail :: s == lead + r + trail && AllWhiteSpace(lead) && AllWhiteSpace(trail)
  {
    var lead, trail := s[..|s| - |t|], t[|r|..];
    assert s == lead + t;
    assert t == r + trail;
    assert AllWhiteSpace(lead) by {
      forall i | 0 <= i < |lead|
        ensures IsWhiteSpace(lead[i])
      {
        assert lead[i] == s[i];
      }
    }
    assert AllWhiteSpace(trail) by {
      forall i | 0 <= i < |trail|
        ensures IsWhiteSpace(trail[i])
      {
        assert trail[i] == t[|r| + i];
      }
    }
    assert s == lead + r + trail;
  }
}

=== FILE: Wrappers.dfy ===
/** Option and Result, used for the console's missing values and thrown exceptions. */
module Wrappers {

  datatype Option<+T> = None | Some(value: T)

  /** Success carries the value an operation produced; Failure stands for the exception it threw. */
  datatype Result<+R, +E> = Success(value: R) | Failure(error: E)
}
